=== FILE: README.md ===
# RestPipe message loop and connection catalog, in Dafny

RestPipe carries a bidirectional event protocol over persistent TLS
connections. Each connection runs one message loop, `CommonMessageLoop`, and
the server keeps a per-IP catalog of live connections, `_ConnectionCatalog`.
This project models both and proves properties of the models.

- **Message loop** (`rpipe/message_loop.py`). The loop reads frames from the
  connection's message exchange. It answers heartbeats with a version-1
  HeartbeatReply and hands events to the event router. An unknown frame type
  either ends the loop or is skipped, depending on `exit_on_unknown`.
- **Event router** (the same file). It derives a handler name and positional
  parameters from an event's verb and noun, then calls the handler. It maps
  the handler's result or exception to one EventReply
  `(code, mimetype, data)`.
- **Connection catalog** (`rpipe/server/connection.py`). It registers and
  deregisters connections and looks them up by IP. It can also wait for an IP
  to appear. The model includes the hash-based equality of server
  connections and the register / loop / `finally` deregister lifecycle.

Files and modules:

| file | module | models |
|---|---|---|
| `wrappers.dfy` | `Wrappers` | `Option` and `Result` |
| `text.dfy` | `Text` | Python 2 `str.split`, `join`, single-character `replace`, `lower` |
| `messages.dfy` | `Messages` | messages, frames, handler values, reply payloads, addresses |
| `event_router.dfy` | `EventRouter` | `__handle_event`, `__process_event`, `__send_event_response` |
| `message_loop.dfy` | `MessageLoop` | `handle`, `__handle_heartbeat`, the per-frame replies |
| `connection_catalog.dfy` | `ConnectionCatalog` | `_ConnectionCatalog`, `__hash__`, `__eq__` |
| `server_connection.dfy` | `ServerConnection` | `handle_new_connection`, `handle`, `handle_close` |
| `router_scenarios.dfy` | `RouterScenarios` | worked dispatches (`get_time`) |

How the model stands in for what it cannot see:

- The message exchange is abstract. Each turn of the loop is a `Poll`: what
  `is_alive` answered, then what `read` returned (no data, connection closed,
  or a frame).
- Handler lookup by `getattr` is a map from handler name to handler. A
  handler is a function from its arguments to an `Outcome`: a returned value,
  a managed `RpHandleException` with its code, any other `Exception`, or
  something `except Exception` does not catch (`SystemExit`,
  `KeyboardInterrupt`, gevent's `GreenletExit`, an old-style class instance).
- `json.loads` is a parameter of the router; `None` means it raised.
  `json.dumps` is kept symbolic: `JsonText(v)` is the text `json.dumps(v)`.
  The predicate `Serializable` says which values it accepts.
- Python's string hash is a parameter `h`. The catalog dict is a map from
  hash value to the stored connection. This is exact for this code: a
  connection's `__eq__` compares hashes, so two dict keys collide exactly
  when their hashes are equal.
- Wall-clock time in `wait_for_connection` is a sequence of observations.
  Each observation is the clock value the `while` test reads, plus the
  catalog the lookup then sees.

Behaviour of the code that the model keeps as written:

- The handler name uses the whole noun before the first `//`, with every `/`
  turned into `_`.
- The parameters are the text between the first `//` and the next `//`,
  split on `/`. Text after a second `//` is dropped
  (`SecondSeparatorDropsTail`). A noun whose first `//` is at its end gives
  one empty parameter (`FinalSeparatorGivesEmptyParameter`).
- Leaving the loop on an unknown frame uses `return`, which skips
  `stop_exchange`. So the exchange is not stopped on every exit path.
  `Handle` states exactly when it is stopped.
- The code refuses to encode a non-text result under a non-JSON mimetype.
  But the message it builds for that refusal uses the name `noun`, which is
  not defined in `__process_event`. So a NameError is raised, not the
  ValueError the code constructs (`Escape.UndefinedName`). Either way no
  reply is sent.
- An event gets exactly one reply unless processing raises. That happens
  when the JSON body does not parse, when the handler raises something
  outside `Exception`'s hierarchy, when `json.dumps` fails, or in the
  NameError case above (`EscapesOnlyOnCodecOrBaseException`).
- Hashing a connection that has no address fails on `self.__address[0]` with
  a TypeError. That happens before the explicit ValueError check, which only
  an address whose host is `None` reaches (`HashError`).
- Connection equality is equality of IP hashes, not of IPs.
  `EqualityIsSameIp` recovers IP equality only for a hash that tells the IPs
  apart.
- The duplicate and missing-entry errors are the ValueErrors of `register`
  and `deregister`. A timed-out wait raises `RpNoConnectionException(ip)`.
- `handle` builds its setup (event-handler class, handler, message loop) in
  front of its `try`. If that setup raises, the `finally` never runs and the
  connection stays registered. As written the setup always raises; see
  "## Findings".

## Model

| member | source | states |
|---|---|---|
| Text.Split | rpipe/message_loop.py:112-116 | `str.split` with a non-empty separator returns at least one piece. Joining the pieces with the separator gives back the string, and no piece contains the separator. The first cut is at the leftmost occurrence, and the remaining pieces are the split of the text after it. |
| Text.Join | rpipe/message_loop.py:125 | `sep.join([])` is `''` and `sep.join([p])` is `p`. Otherwise `sep.join(parts)` starts with the first part. When there is a second part, the separator follows the first part, and then comes the join of the remaining parts. |
| Text.ReplaceChar | rpipe/message_loop.py:122 | `s.replace(a, b)` has the length of `s`. It holds `b` wherever `s` holds `a`, and `s`'s character everywhere else. |
| Text.Lower | rpipe/message_loop.py:121 | `s.lower()` has the length of `s`, with each character lower-cased one by one. |
| Text.SplitJoinChar | rpipe/message_loop.py:116 | Splitting on one character inverts joining with it, when no part contains that character. |
| Text.ReplaceIsSplitJoin | rpipe/message_loop.py:122 | `s.replace(a, b)` equals `b.join(s.split(a))`. |
| Text.LowerIsLowerCase | rpipe/message_loop.py:121 | `lower()` leaves no upper-case letter and is idempotent. |
| EventRouter.NounPath | rpipe/message_loop.py:112-114 | The noun's path is a prefix of the noun. Either it is the whole noun, or the leftmost `//` starts right after it. No `//` starts inside it. |
| EventRouter.NounParameters | rpipe/message_loop.py:112-118 | The parameter list is empty exactly when the noun has no `//`. No parameter contains `/`. |
| EventRouter.HandlerName | rpipe/message_loop.py:120-125 | The name is the lower-cased verb, then `_`, then the noun's path with `/` replaced by `_`; its length is the verb's plus one plus the path's. |
| EventRouter.HandlerNameChars | rpipe/message_loop.py:120-125 | Character by character, the verb part is lower case, each `/` of the path becomes `_` and every other path character is kept, so no `/` is left after the verb. |
| EventRouter.HandlerNameIgnoresVerbCase | rpipe/message_loop.py:121 | The verb's case never changes which handler is chosen. |
| EventRouter.ComposedNounRoundTrip | rpipe/message_loop.py:112-125 | For `path + "//" + "/".join(params)`, the parameters derived are exactly `params`, and the handler name is that of `path` alone. |
| EventRouter.SecondSeparatorDropsTail | rpipe/message_loop.py:112-116 | Only the text between the first and second `//` becomes parameters. |
| EventRouter.FinalSeparatorGivesEmptyParameter | rpipe/message_loop.py:112-116 | A noun whose first `//` is at its end has exactly one parameter, the empty string. |
| EventRouter.HandlerBody | rpipe/message_loop.py:150-153 | The body is JSON-decoded only when the mimetype is `application/json` and the data is non-empty; a parse failure raises. Otherwise the data is passed through unchanged as text. |
| EventRouter.EncodeData | rpipe/message_loop.py:199-211 | A successful encoding carries exactly the result, with `None` turned into `''`. `None`, text and generators are sent unencoded, as raw `''`, the raw text and the stream; other values become JSON text. Encoding fails exactly for a value that is not text, not a generator and not `None`, when the mimetype is not JSON or the value is not serializable. Under a non-JSON mimetype the failure is the NameError; under the JSON mimetype it is `json.dumps` rejecting that value. |
| EventRouter.Capture | rpipe/message_loop.py:155-184 | A returned value comes with code 0. A managed exception gives its own code and a `managed` exception body; any other `Exception` gives the configured unhandled-exception code and an `uncaught` body. Anything `except Exception` does not catch escapes, exactly then. An exception body is always JSON-serialisable and never passes through unencoded. |
| EventRouter.ReplyParts | rpipe/message_loop.py:186-193 | A tuple result supplies the mimetype, code and data, with a `None` mimetype meaning JSON; any other result is the data, under JSON, keeping the code. The mimetype is JSON unless the tuple names another. |
| EventRouter.EventResponse | rpipe/message_loop.py:215-236 | The reply is a version-1 EventReply correlated to the given id, carrying the given code, mimetype and data; the mimetype defaults to `text/plain` and the data to empty. |
| EventRouter.Process | rpipe/message_loop.py:144-213 | A malformed JSON body raises before the handler runs. A managed exception gives a JSON reply with the exception's own code and a `managed` body. Any other `Exception` gives the configured code and an `uncaught` body. Anything outside `Exception`'s hierarchy escapes with no reply. A non-tuple result gives the JSON mimetype and code 0, and fails only if it is not serializable. A tuple result sets the mimetype (`None` means JSON), the code and the data. In both cases the reply body, or the exception raised, is exactly what encoding the data under the reply's mimetype gives. Every reply is a version-1 EventReply to the event's id. |
| EventRouter.PassThroughIgnoresMimetype | rpipe/message_loop.py:199-206 | `None`, text and generators are sent unencoded, whatever the reply's mimetype. |
| EventRouter.TextEchoRoundTrip | rpipe/message_loop.py:150-213 | A handler that returns its non-JSON body under the same mimetype makes the reply carry exactly the event's data. Decoding the body and encoding the result are inverse for text. |
| EventRouter.JsonEchoRoundTrip | rpipe/message_loop.py:150-213 | A handler that returns its decoded JSON document makes the reply carry that document as JSON, with code 0, so the peer reads back what the handler was given. |
| EventRouter.HandleEvent | rpipe/message_loop.py:107-142 | With no handler of that name, exactly one reply is sent: the unhandled-event code, `text/plain` and empty data. Otherwise the named handler processes the event with the derived parameters. Every reply is correlated to the event's id. |
| EventRouter.EscapesOnlyOnCodecOrBaseException | rpipe/message_loop.py:127-213 | No reply is sent only when a handler was found and then the JSON body failed to parse, or the handler raised something outside `Exception`'s hierarchy, or it returned data that is not text, not a generator and not `None`. An `Exception` raised by the handler never prevents the reply. |
| MessageLoop.Handle | rpipe/message_loop.py:42-95 | The loop ends at the first poll that finds the exchange dead, the connection closed, or (with `exit_on_unknown`) an unknown frame. Empty reads, and unknown frames without `exit_on_unknown`, continue the loop. Every heartbeat and event frame read before the end is dispatched, in order. `stop_exchange` runs exactly when the loop broke out on a dead exchange or a closed connection. |
| MessageLoop.DispatchedAreDispatchable | rpipe/message_loop.py:72-76 | Only heartbeat and event frames are handed to handlers. |
| MessageLoop.DispatchedIncludes | rpipe/message_loop.py:72-93 | Every heartbeat or event frame read on a live exchange is handed to its handler. |
| MessageLoop.HeartbeatResponse | rpipe/message_loop.py:97-105 | The heartbeat reply is a version-1 HeartbeatReply correlated to the heartbeat's id. |
| MessageLoop.Respond | rpipe/message_loop.py:97-107 | A heartbeat is answered with a version-1 HeartbeatReply to its id. An event is answered with its EventReply, unless processing raised. Any reply is correlated to the frame's id. |
| MessageLoop.HeartbeatIgnoresHandlers | rpipe/message_loop.py:97-105 | The heartbeat reply does not depend on the application's handlers. |
| MessageLoop.RepliesCorrelated | rpipe/message_loop.py:93-105 | Every reply the handlers send answers one of the dispatched frames. |
| MessageLoop.RepliesExactlyOnce | rpipe/message_loop.py:93-105 | A frame whose handler replies, and whose id no other frame carries, has that reply among the sent messages exactly once. |
| MessageLoop.ReplyAll | rpipe/message_loop.py:93-105 | With every spawned handler run to completion, the messages sent are exactly the handlers' replies, in dispatch order. Each answers a dispatched frame, and with distinct ids each is sent exactly once. |
| MessageLoop.RepliesAllAnswered | rpipe/message_loop.py:93-105 | When every handler replies, exactly one reply is sent per dispatched frame, in dispatch order, each the reply of its frame. |
| MessageLoop.ServedOnce | rpipe/message_loop.py:97-142 | With distinct ids, a dispatched heartbeat's HeartbeatReply is sent exactly once. So is a dispatched event's EventReply, when its processing completes. |
| MessageLoop.Serve | rpipe/message_loop.py:42-105 | The loop ends at the first poll that ends it, with that poll's reason, or reads every poll when none does. The messages sent are exactly the replies of the dispatched frames. With distinct message ids, each heartbeat read before the loop ends gets exactly one correlated HeartbeatReply, and each event whose processing completes gets its EventReply exactly once. Every reply answers a dispatched frame. |
| ConnectionCatalog.ConnHash | rpipe/server/connection.py:102-106 | Hashing succeeds exactly for a connection with an address and a host, and then gives the IP's hash. With no address it fails with the TypeError; with an address whose host is `None`, with the ValueError. |
| ConnectionCatalog.Equals | rpipe/server/connection.py:108-112 | Comparing with `None` is false. Otherwise the result is whether the two hashes are equal. It fails if either side is an unconnected connection; the left side is hashed first, so its TypeError or ValueError is the one raised. |
| ConnectionCatalog.EqualityIgnoresPort | rpipe/server/connection.py:102-112 | Two connections from the same IP are equal whatever their ports, and so are a connection and its IP string. |
| ConnectionCatalog.EqualityIsSameIp | rpipe/server/connection.py:102-112 | With a hash that tells IPs apart, connections are equal exactly when their IPs are. |
| ConnectionCatalog.Register | rpipe/server/connection.py:45-58 | An unconnected connection raises its own hash error, TypeError or ValueError. A duplicate IP raises and leaves the catalog unchanged. Otherwise the connection is added under its IP's hash, and every other entry is kept. |
| ConnectionCatalog.Deregister | rpipe/server/connection.py:60-66 | An unconnected connection raises its own hash error, TypeError or ValueError. An absent IP raises and leaves the catalog unchanged. Otherwise exactly that IP's entry is removed, and every other entry is kept. |
| ConnectionCatalog.GetConnectionByIp | rpipe/server/connection.py:68-69 | A lookup succeeds exactly when the IP's hash is present, and otherwise raises KeyError. What it finds hashes like the IP. |
| ConnectionCatalog.MutationsKeepWellKeyed | rpipe/server/connection.py:45-66 | Register and deregister keep every entry under its own connection's hash, so there is at most one entry per IP hash. |
| ConnectionCatalog.RegisteredIsFound | rpipe/server/connection.py:45-69 | After a successful `register(c)`, lookup by `c`'s IP returns `c`. |
| ConnectionCatalog.RegisterDeregisterRestores | rpipe/server/connection.py:45-66 | Register followed by deregister restores the catalog, so lookup of that IP misses again. |
| ConnectionCatalog.DeregisterBySameIp | rpipe/server/connection.py:60-66 | Any connection object with the same IP removes the entry, because removal goes by equality and not identity. |
| ConnectionCatalog.WaitForConnection | rpipe/server/connection.py:71-89 | The wait returns the entry at the first poll before the deadline that holds it. It raises `RpNoConnectionException(ip)` at the first poll past the deadline if no earlier poll found the IP. |
| ServerConnection.HandleNewConnection | rpipe/server/connection.py:114-145 | The catalog calls are exactly register, then deregister when the loop ran. The loop runs exactly when registration and `handle`'s setup both succeed. A refused registration leaves the catalog unchanged and raises. A setup that raises leaves the connection registered, with no deregistration. When the loop ran and the entry is still there, exactly that entry is removed, every other entry keeps its value, and the session raises the loop's exception if it raised one and nothing otherwise; when it is gone, the catalog is left as the other connections made it and `deregister`'s ValueError replaces any exception of the loop. |
| ServerConnection.SetupAsWritten | rpipe/server/connection.py:129-140 | As written, the setup raises exactly when the handler's own setup raises or `handle` passes the constructor a keyword it does not name. |
| ServerConnection.ConstructLoop | rpipe/server/connection.py:136-140 | Building the message loop raises exactly when a keyword argument is not a parameter of `CommonMessageLoop.__init__`. |
| ServerConnection.SetupAsWrittenAlwaysRaises | rpipe/server/connection.py:136-140 | As written, `handle`'s setup always raises, because `watch_heartbeats` is not a parameter of the loop's constructor. |
| ServerConnection.AsWrittenSessionLeaksEntry | rpipe/server/connection.py:121-145 | As written, a connection that registers never runs its loop and is never deregistered. Its entry stays, and the next connection from the same host is refused. |
| ServerConnection.SetupIntended | rpipe/server/connection.py:130-140 | With the loop built from the arguments its constructor takes, the setup fails only when loading or building the event handler fails. |
| ServerConnection.SessionRestoresCatalog | rpipe/server/connection.py:121-145 | With the intended setup and no other connection touching the catalog, a session leaves the catalog as it found it, and when its loop ran it raises the loop's exception if there was one and nothing otherwise. |
| ServerConnection.SecondSessionFromHostRefused | rpipe/server/connection.py:114-123 | A second connection from a host with a live session is refused before its loop starts, and the existing entry stays. |
| RouterScenarios.GetTimeRoute | rpipe/message_loop.py:112-125 | `get` on `time` routes to `get_time` with no parameters. |
| RouterScenarios.GetTimeReply | rpipe/message_loop.py:144-213 | A `get_time` handler returning `{"time": 123}` gives a JSON reply with status 0 and that value. |
| RouterScenarios.GetTimeManagedFailure | rpipe/message_loop.py:157-171 | A managed exception with code 42 gives status 42 and a `managed` body. |
| RouterScenarios.GetTimeUnhandled | rpipe/message_loop.py:127-135 | An event no handler answers gets the unhandled-event code, `text/plain` and empty data. |

## Findings

| source | as written | input that shows it | evidently intended | confidence | as-written member | corrected member |
|---|---|---|---|---|---|---|
| rpipe/server/connection.py:136-140 | `handle` builds `CommonMessageLoop(..., watch_heartbeats=True)`, but `__init__` (rpipe/message_loop.py:27) takes no such parameter. The TypeError is raised in front of the `try`, so the `finally` never deregisters. | Any accepted connection whose registration succeeds: its entry stays, and every later connection from that host is refused by `register`. | The loop is built with the constructor's own arguments, runs, and the connection is deregistered when it ends. | high; not executed | ServerConnection.AsWrittenSessionLeaksEntry | ServerConnection.SessionRestoresCatalog |

## Left out

- The wire protocol and the message exchange (`rpipe.protocol`, `rpipe.message_exchange`, `rpipe.protocols`) are not part of this model. `send`, `read`, `start_exchange`, `stop_exchange` and `is_alive` are abstract. Frame encoding, reply correlation in the exchange, and the client reconnector are not modelled.
- MessageLoop.Serve: lists replies in dispatch order. The greenlets started by `gevent.spawn` may finish in any order, and the model does not capture that interleaving.
- ConnectionCatalog.WaitForConnection: the one-second `gevent.sleep` between polls is not modelled. Observations are arbitrary clock readings, and a run whose observations end before the deadline reports `StillWaiting`.
- ServerConnection.HandleNewConnection: what other connections do to the catalog during the loop is a single function applied to the catalog. Finer interleavings are not modelled. Failures of `handle`'s setup other than the constructor's TypeError (a class that does not load, the subclass `assert`, the handler's constructor) are one `SetupRaised` outcome.
- MessageLoop.Serve: the exactly-once statements assume the dispatched frames have distinct message ids. The exchange's id allocation is not part of this model.
- `Server.process_requests` and the older `rpipe/server.py` handler (gevent `StreamServer`, TLS setup) are not modelled. Note that `process_requests` passes one handler instance to every accepted connection; the model treats each connection as its own object.
- `load_cls_from_string` is not modelled, and `getattr` becomes a map of handlers. An attribute that exists but is not callable is not modelled.
- `json.loads` and `json.dumps` are opaque (see above). The traceback text in an exception body is an opaque string.
- Messages.Json: a JSON number is an integer. Floats, such as the `time.time()` an example handler returns, are not represented; the loop and the catalog never compute on numbers.
- Logging is not modelled, including `handler.func_name` at rpipe/message_loop.py:196, which would raise for a handler object without that attribute.
- Text.LowerIsLowerCase: models Python 2 `str.lower()` in the C locale (ASCII letters only). Lower-casing non-ASCII characters of a `unicode` verb is not modelled.
- EventRouter.Process: a tuple result is modelled only as a 3-tuple with an optional string mimetype and an integer code. A tuple of another length, whose unpacking raises ValueError, is not modelled.
- MessageLoop.Handle: `is_alive` is a boolean. A non-boolean answer, which `is False` would treat as alive, is not modelled. Exceptions from `read` other than `Empty` and `RpConnectionClosed` are not modelled either.
- The status codes `UNHANDLED_EVENT_DEFAULT_RESULT_CODE` and `UNHANDLED_EXCEPTION_CODE` are router parameters, because their configuration modules are not part of this model.
- Configuration loading, the client application, the gunicorn settings, the HTTP adapter and `rpipe/event.py`'s `emit` are not modelled: they hold no loop or catalog logic.

=== FILE: connection_catalog.dfy ===
/** `_ConnectionCatalog` and the IP-based `__hash__`/`__eq__` of
    `DefaultServerConnectionHandler` (rpipe/server/connection.py:37-112).

    The catalog is a Python dict whose keys are connection objects. Because
    a connection hashes as its IP string and compares equal to anything with
    the same hash, two keys collide exactly when their hashes are equal, so
    the dict is modelled as a map from hash value to the stored connection.
    Python's string hash is a parameter `h`; nothing is assumed about it
    except where a lemma says so. */
module ConnectionCatalog {
  import opened Wrappers
  import opened Messages

  /** A server-side connection object: its Python identity and the peer
      address it was given (`None` until a connection is accepted). */
  datatype Conn = Conn(identity: nat, address: Option<Address>)

  /** Why hashing a connection failed: `self.__address[0]` on a `None`
      address raises a TypeError before the explicit check is reached; an
      address whose host is `None` raises the ValueError of that check. */
  datatype HashError = AddressMissing | HostMissing

  datatype CatalogError =
    | HashFailed(cause: HashError)
      /** The ValueError of `register`. */
    | AlreadyRegistered(ip: string)
      /** The ValueError of `deregister`. */
    | NotRegistered(ip: string)
      /** The KeyError of the dict lookup in `get_connection_by_ip`. */
    | KeyMissing(ip: string)

  /** The dict's contents, by hash value of the key. */
  type Slots = map<int, Conn>

  /** A mutation's result: the catalog afterwards and the exception raised,
      if any. */
  datatype Step = Step(after: Slots, raised: Option<CatalogError>)

  /** `__hash__`: the hash of the connection's IP. */
  function ConnHash(h: string -> int, c: Conn): (r: Result<int, HashError>)
    ensures r.Success? <==> c.address.Some? && c.address.value.host.Some?
    ensures r.Success? ==> r.value == h(c.address.value.host.value)
    ensures c.address.None? ==> r == Failure(AddressMissing)
    ensures c.address.Some? && c.address.value.host.None? ==> r == Failure(HostMissing)
  {
    match c.address
    case None => Failure(AddressMissing)
    case Some(a) =>
      match a.host
      case None => Failure(HostMissing)
      case Some(ip) => Success(h(ip))
  }

  /** A connected object: one whose hash can be taken. */
  predicate Connected(c: Conn) {
    c.address.Some? && c.address.value.host.Some?
  }

  /** The `ip` property of a connected object. */
  function Ip(c: Conn): string
    requires Connected(c)
  {
    c.address.value.host.value
  }

  /** The right operand of `==`: `None`, an IP string or a connection. */
  datatype Operand = NoneOperand | IpOperand(ip: string) | ConnOperand(other: Conn)

  /** The hash of an operand, as `hash(o)` computes it. */
  function OperandHash(h: string -> int, o: Operand): Result<int, HashError>
    requires !o.NoneOperand?
  {
    match o
    case IpOperand(ip) => Success(h(ip))
    case ConnOperand(d) => ConnHash(h, d)
  }

  /** `__eq__`: false against `None` (even for an unconnected object);
      otherwise the hashes of both sides are compared, the left one taken
      first. */
  function Equals(h: string -> int, c: Conn, o: Operand): (r: Result<bool, HashError>)
    ensures o.NoneOperand? ==> r == Success(false)
    ensures !o.NoneOperand? && !Connected(c) ==> r == Failure(ConnHash(h, c).error)
    ensures o.ConnOperand? && Connected(c) && Connected(o.other) ==>
              r == Success(h(Ip(c)) == h(Ip(o.other)))
    ensures o.IpOperand? && Connected(c) ==> r == Success(h(Ip(c)) == h(o.ip))
    ensures o.ConnOperand? && Connected(c) && !Connected(o.other) ==>
              r == Failure(ConnHash(h, o.other).error)
  {
    if o.NoneOperand? then Success(false)
    else
      match ConnHash(h, c)
      case Failure(e) => Failure(e)
      case Success(mine) =>
        match OperandHash(h, o)
        case Failure(e) => Failure(e)
        case Success(theirs) => Success(mine == theirs)
  }

  /** Equality looks at the IP only: two connections from one host are equal
      whatever their ports and whichever objects they are. */
  lemma EqualityIgnoresPort(h: string -> int, c: Conn, d: Conn)
    requires Connected(c) && Connected(d) && Ip(c) == Ip(d)
    ensures Equals(h, c, ConnOperand(d)) == Success(true)
    ensures Equals(h, c, IpOperand(Ip(d))) == Success(true)
  {
  }

  /** With a hash that tells IPs apart, two connections are equal exactly
      when their IPs are. */
  lemma EqualityIsSameIp(h: string -> int, c: Conn, d: Conn)
    requires forall x, y :: h(x) == h(y) ==> x == y
    requires Connected(c) && Connected(d)
    ensures Equals(h, c, ConnOperand(d)) == Success(Ip(c) == Ip(d))
  {
  }

  /** The catalog invariant: every stored connection is connected and sits
      under its own hash, so there is at most one entry per hash value. */
  ghost predicate WellKeyed(h: string -> int, slots: Slots) {
    forall k {:trigger slots[k]} | k in slots :: ConnHash(h, slots[k]) == Success(k)
  }

  /** `register`: refuses a connection equal to one already present and
      leaves the catalog as it was; otherwise adds it under its hash, leaving
      every other entry as it was. */
  function Register(h: string -> int, slots: Slots, c: Conn): (s: Step)
    ensures s.raised.Some? ==> s.after == slots
    ensures !Connected(c) ==> s.raised == Some(HashFailed(ConnHash(h, c).error))
    ensures Connected(c) && h(Ip(c)) in slots ==> s.raised == Some(AlreadyRegistered(Ip(c)))
    ensures Connected(c) && h(Ip(c)) !in slots ==>
              && s.raised.None?
              && s.after.Keys == slots.Keys + {h(Ip(c))}
              && s.after[h(Ip(c))] == c
              && (forall k | k in slots :: s.after[k] == slots[k])
  {
    match ConnHash(h, c)
    case Failure(e) => Step(slots, Some(HashFailed(e)))
    case Success(k) =>
      if k in slots then Step(slots, Some(AlreadyRegistered(c.address.value.host.value)))
      else Step(slots[k := c], None)
  }

  /** `deregister`: refuses a connection with no equal entry and leaves the
      catalog as it was; otherwise removes exactly the entry under its hash. */
  function Deregister(h: string -> int, slots: Slots, c: Conn): (s: Step)
    ensures s.raised.Some? ==> s.after == slots
    ensures !Connected(c) ==> s.raised == Some(HashFailed(ConnHash(h, c).error))
    ensures Connected(c) && h(Ip(c)) !in slots ==> s.raised == Some(NotRegistered(Ip(c)))
    ensures Connected(c) && h(Ip(c)) in slots ==>
              && s.raised.None?
              && s.after.Keys == slots.Keys - {h(Ip(c))}
              && (forall k | k in s.after :: s.after[k] == slots[k])
  {
    match ConnHash(h, c)
    case Failure(e) => Step(slots, Some(HashFailed(e)))
    case Success(k) =>
      if k !in slots then Step(slots, Some(NotRegistered(c.address.value.host.value)))
      else Step(slots - {k}, None)
  }

  /** `get_connection_by_ip`: a direct dict lookup, raising KeyError on a
      miss. What it finds hashes like `ip`. */
  function GetConnectionByIp(h: string -> int, slots: Slots, ip: string): (r: Result<Conn, CatalogError>)
    requires WellKeyed(h, slots)
    ensures r.Success? <==> h(ip) in slots
    ensures r.Failure? ==> r.error == KeyMissing(ip)
    ensures r.Success? ==> Connected(r.value) && h(Ip(r.value)) == h(ip)
  {
    var k := h(ip);
    if k in slots then
      assert ConnHash(h, slots[k]) == Success(k);
      Success(slots[k])
    else Failure(KeyMissing(ip))
  }

  /** Both mutations keep the catalog invariant. */
  lemma MutationsKeepWellKeyed(h: string -> int, slots: Slots, c: Conn)
    requires WellKeyed(h, slots)
    ensures WellKeyed(h, Register(h, slots, c).after)
    ensures WellKeyed(h, Deregister(h, slots, c).after)
  {
  }

  /** After a successful `register(c)`, looking up `c`'s IP finds `c`. */
  lemma RegisteredIsFound(h: string -> int, slots: Slots, c: Conn)
    requires WellKeyed(h, slots)
    requires Register(h, slots, c).raised.None?
    ensures WellKeyed(h, Register(h, slots, c).after)
    ensures GetConnectionByIp(h, Register(h, slots, c).after, Ip(c)) == Success(c)
  {
  }

  /** Register followed by deregister of the same connection restores the
      catalog, so its IP is missed again. */
  lemma RegisterDeregisterRestores(h: string -> int, slots: Slots, c: Conn)
    requires WellKeyed(h, slots)
    requires Register(h, slots, c).raised.None?
    ensures Deregister(h, Register(h, slots, c).after, c) == Step(slots, None)
    ensures GetConnectionByIp(h, slots, Ip(c)) == Failure(KeyMissing(Ip(c)))
  {
    var k := h(Ip(c));
    assert Register(h, slots, c).after - {k} == slots;
  }

  /** Any connection from the same IP, another object included, removes the
      entry: deregistration goes by equality, not identity. */
  lemma DeregisterBySameIp(h: string -> int, slots: Slots, c: Conn, d: Conn)
    requires WellKeyed(h, slots)
    requires Register(h, slots, c).raised.None?
    requires Connected(d) && Ip(d) == Ip(c)
    ensures Deregister(h, Register(h, slots, c).after, d) == Step(slots, None)
  {
    var k := h(Ip(c));
    assert Register(h, slots, c).after - {k} == slots;
  }

  /** One observation of `wait_for_connection`'s loop: the clock read by
      the `while` test and the catalog the lookup then sees. */
  datatype Observation = Observation(clock: real, slots: Slots)

  datatype WaitResult =
    | Found(conn: Conn)
      /** `RpNoConnectionException(ip)`. */
    | NoConnection(ip: string)
      /** The observations ran out while the deadline had not passed. */
    | StillWaiting

  /** `wait_for_connection`: with `stop_at = start + timeout`, returns the
      entry at the first observation before the deadline that holds it;
      raises once an observation finds the deadline passed with no entry
      seen before. Observations are spaced by `gevent.sleep(1)`, which the
      model does not constrain. */
  method WaitForConnection(h: string -> int, ip: string, start: real, timeout: real,
                           observations: seq<Observation>)
    returns (r: WaitResult)
    ensures r.Found? ==>
              exists i | 0 <= i < |observations| ::
                && observations[i].clock <= start + timeout
                && h(ip) in observations[i].slots
                && r.conn == observations[i].slots[h(ip)]
                && (forall j | 0 <= j < i ::
                      observations[j].clock <= start + timeout && h(ip) !in observations[j].slots)
    ensures r.NoConnection? ==>
              && r.ip == ip
              && exists i | 0 <= i < |observations| ::
                   && observations[i].clock > start + timeout
                   && (forall j | 0 <= j < i ::
                         observations[j].clock <= start + timeout && h(ip) !in observations[j].slots)
    ensures r.StillWaiting? ==>
              forall j | 0 <= j < |observations| ::
                observations[j].clock <= start + timeout && h(ip) !in observations[j].slots
  {
    var stopAt := start + timeout;
    var i := 0;
    while i < |observations|
      invariant 0 <= i <= |observations|
      invariant forall j | 0 <= j < i ::
                  observations[j].clock <= stopAt && h(ip) !in observations[j].slots
    {
      if observations[i].clock > stopAt {
        return NoConnection(ip);
      }
      if h(ip) in observations[i].slots {
        return Found(observations[i].slots[h(ip)]);
      }
      i := i + 1;
    }
    return StillWaiting;
  }
}

=== FILE: event_router.dfy ===
/** The event half of `CommonMessageLoop` (rpipe/message_loop.py): turning an
    Event's verb and noun into a handler name and positional parameters,
    calling the handler, and mapping its result or exception to the one
    EventReply sent back. Handler lookup by `getattr` becomes a finite map
    from handler name to handler; `json.loads` is a parameter and
    `json.dumps` is kept symbolic (`Payload.JsonText`). */
module EventRouter {
  import opened Wrappers
  import opened Text
  import opened Messages

  /** Mimetype of a reply built with `__send_event_response`'s defaults. */
  const DEFAULT_REPLY_MIMETYPE: string := "text/plain"

  /** Separates a noun's path from its positional parameters. */
  const PARAMETER_SEPARATOR: string := "//"

  /** The two configured status codes. Their values live in configuration
      modules that are not part of this model. */
  datatype Config = Config(unhandledEventCode: int, unhandledExceptionCode: int)

  /** The arguments of `handler(ctx, (mimetype, data), *parameters)`. */
  datatype Invocation = Invocation(
    context: ConnectionContext, mimetype: string, body: Value, parameters: seq<string>)

  /** How a handler call ends: it returns a value, raises an
      `RpHandleException` (which carries its own status code), raises any
      other `Exception`, or raises something `except Exception` does not
      catch (`SystemExit`, `KeyboardInterrupt`, gevent's `GreenletExit`, an
      old-style class instance). */
  datatype Outcome =
    | Returned(value: Value)
    | RaisedManaged(code: int, className: string, traceback: string)
    | RaisedUncaught(className: string, traceback: string)
    | RaisedBase(className: string)

  type Handler = Invocation -> Outcome

  /** What one message loop dispatches against: the event handler's methods
      by name, the JSON parser (`None` when `json.loads` raises), the
      configured codes and the connection context. */
  datatype Router = Router(
    handlers: map<string, Handler>,
    parseJson: string -> Option<Value>,
    config: Config,
    context: ConnectionContext)

  /** The exceptions that escape event processing; no reply is sent when
      one is raised. */
  datatype Escape =
      /** `json.loads` rejected the incoming JSON body. */
    | MalformedJson(data: string)
      /** `json.dumps` could not serialise the result. */
    | NotSerializable(value: Value)
      /** The refusal to encode a non-text result under a non-JSON mimetype:
          building its message evaluates the name `noun`, which is not
          defined in `__process_event`, so a NameError is what is raised. */
    | UndefinedName(name: string)
      /** The handler raised something outside `Exception`'s hierarchy. */
    | HandlerEscaped(className: string)

  // ---------------------------------------------------------------------
  // Handler name and parameters
  // ---------------------------------------------------------------------

  /** `noun.split('//')[0]`: the noun up to its leftmost `//`. */
  function NounPath(noun: string): (path: string)
    ensures |path| <= |noun| && path == noun[..|path|]
    ensures path == noun || OccursAt(noun, PARAMETER_SEPARATOR, |path|)
    ensures forall j :: 0 <= j < |path| ==> !OccursAt(noun, PARAMETER_SEPARATOR, j)
  {
    Split(noun, PARAMETER_SEPARATOR)[0]
  }

  /** The positional parameters: the text between the leftmost `//` and the
      next one, split on `/`; none when the noun has no `//`. */
  function NounParameters(noun: string): (params: seq<string>)
    ensures params == [] <==> !Contains(noun, PARAMETER_SEPARATOR)
    ensures forall k :: 0 <= k < |params| ==> '/' !in params[k]
  {
    var urlParts := Split(noun, PARAMETER_SEPARATOR);
    SplitCount(noun, PARAMETER_SEPARATOR);
    if |urlParts| > 1 then
      SplitCharPieces(urlParts[1], '/');
      Split(urlParts[1], "/")
    else []
  }

  /** The handler name: the lower-cased verb, `_`, then the noun's path
      with every `/` turned into `_`. */
  function HandlerName(verb: string, noun: string): (name: string)
    ensures |name| == |verb| + 1 + |NounPath(noun)|
    ensures name[..|verb|] == Lower(verb)
    ensures name[|verb|] == '_'
    ensures name[|verb| + 1..] == ReplaceChar(NounPath(noun), '/', '_')
  {
    var name := Join([Lower(verb), ReplaceChar(NounPath(noun), '/', '_')], "_");
    JoinCons(Lower(verb), [ReplaceChar(NounPath(noun), '/', '_')], "_");
    assert [Lower(verb)] + [ReplaceChar(NounPath(noun), '/', '_')]
           == [Lower(verb), ReplaceChar(NounPath(noun), '/', '_')];
    assert name == Lower(verb) + "_" + ReplaceChar(NounPath(noun), '/', '_');
    name
  }

  /** Character by character: the verb part is lower case, and the path
      part is the noun's path with each `/` turned into `_`, so the name
      holds no `/` after the verb. */
  lemma HandlerNameChars(verb: string, noun: string)
    ensures IsLowerCase(HandlerName(verb, noun)[..|verb|])
    ensures '/' !in HandlerName(verb, noun)[|verb| + 1..]
    ensures forall i :: 0 <= i < |NounPath(noun)| ==>
              HandlerName(verb, noun)[|verb| + 1 + i]
              == (if NounPath(noun)[i] == '/' then '_' else NounPath(noun)[i])
  {
    var name := HandlerName(verb, noun);
    var path := NounPath(noun);
    LowerIsLowerCase(verb);
    forall i | 0 <= i < |path|
      ensures name[|verb| + 1 + i] == (if path[i] == '/' then '_' else path[i])
    {
      assert name[|verb| + 1 + i] == name[|verb| + 1..][i];
    }
  }

  /** The verb's case does not matter: `GET` and `get` reach the same
      handler. */
  lemma HandlerNameIgnoresVerbCase(verb: string, noun: string)
    ensures HandlerName(Lower(verb), noun) == HandlerName(verb, noun)
  {
    LowerIsLowerCase(verb);
  }

  /** Splitting in front of a leftmost `//`: when `p` holds no `//` and does
      not end in `/`, the first occurrence in `p + "//" + rest` is the one
      right after `p`. */
  lemma SplitAfterPath(p: string, rest: string)
    requires !Contains(p, PARAMETER_SEPARATOR)
    requires p == [] || p[|p| - 1] != '/'
    ensures Split(p + PARAMETER_SEPARATOR + rest, PARAMETER_SEPARATOR)
            == [p] + Split(rest, PARAMETER_SEPARATOR)
  {
    var sep := PARAMETER_SEPARATOR;
    var s := p + sep + rest;
    assert s[|p|..|p| + 2] == sep;
    forall j | 0 <= j < |p|
      ensures !OccursAt(s, sep, j)
    {
      if j + 2 <= |p| {
        assert s[j..j + 2] == p[j..j + 2];
        assert !OccursAt(p, sep, j);
      } else {
        assert s[j] == p[|p| - 1];
        assert s[j..j + 2][0] == s[j];
      }
    }
    FindLeftmost(s, sep, |p|);
    assert s[..|p|] == p;
    assert s[|p| + 2..] == rest;
  }

  /** A noun composed as `path + "//" + "/".join(params)` gives back `path`'s
      handler name and exactly `params`: the parameters never change which
      handler is called. */
  lemma {:induction false} ComposedNounRoundTrip(verb: string, path: string, params: seq<string>)
    requires !Contains(path, PARAMETER_SEPARATOR)
    requires path == [] || path[|path| - 1] != '/'
    requires |params| >= 1
    requires forall k :: 0 <= k < |params| ==> '/' !in params[k]
    requires !Contains(Join(params, "/"), PARAMETER_SEPARATOR)
    ensures NounParameters(path + PARAMETER_SEPARATOR + Join(params, "/")) == params
    ensures HandlerName(verb, path + PARAMETER_SEPARATOR + Join(params, "/"))
            == HandlerName(verb, path)
  {
    var q := Join(params, "/");
    SplitAfterPath(path, q);
    SplitWithoutSeparator(q, PARAMETER_SEPARATOR);
    SplitWithoutSeparator(path, PARAMETER_SEPARATOR);
    SplitJoinChar(params, '/');
  }

  /** Only the text up to a second `//` becomes parameters; anything after
      it is dropped. */
  lemma {:induction false} SecondSeparatorDropsTail(path: string, q: string, tail: string)
    requires !Contains(path, PARAMETER_SEPARATOR)
    requires path == [] || path[|path| - 1] != '/'
    requires !Contains(q, PARAMETER_SEPARATOR)
    requires q == [] || q[|q| - 1] != '/'
    ensures NounParameters(path + PARAMETER_SEPARATOR + (q + PARAMETER_SEPARATOR + tail))
            == Split(q, "/")
  {
    var sep := PARAMETER_SEPARATOR;
    var rest := q + sep + tail;
    SplitAfterPath(path, rest);
    SplitAfterPath(q, tail);
    assert Split(path + sep + rest, sep)[1] == q;
  }

  /** A noun whose first `//` is at its very end has one parameter, the
      empty string. */
  lemma FinalSeparatorGivesEmptyParameter(path: string)
    requires !Contains(path, PARAMETER_SEPARATOR)
    requires path == [] || path[|path| - 1] != '/'
    ensures NounParameters(path + PARAMETER_SEPARATOR) == [""]
  {
    SplitAfterPath(path, "");
    assert path + PARAMETER_SEPARATOR + "" == path + PARAMETER_SEPARATOR;
    assert Split("", PARAMETER_SEPARATOR) == [""];
    assert Split("", "/") == [""];
  }

  // ---------------------------------------------------------------------
  // Processing one event
  // ---------------------------------------------------------------------

  /** The body handed to the handler: a non-empty JSON body is parsed, any
      other body is passed through as text. */
  function HandlerBody(parseJson: string -> Option<Value>, mimetype: string, data: string)
    : (r: Result<Value, Escape>)
    ensures r.Failure? <==> mimetype == JSON_MIMETYPE && data != [] && parseJson(data).None?
    ensures r.Failure? ==> r.error == MalformedJson(data)
    ensures r.Success? && mimetype == JSON_MIMETYPE && data != [] ==> parseJson(data) == Some(r.value)
    ensures mimetype != JSON_MIMETYPE || data == [] ==> r == Success(Text(data))
  {
    if mimetype == JSON_MIMETYPE && data != [] then
      match parseJson(data)
      case Some(v) => Success(v)
      case None => Failure(MalformedJson(data))
    else Success(Text(data))
  }

  /** The body of the reply that reports an exception. */
  function ExceptionBody(traceback: string, kind: string, className: string): Value {
    Structure(JObject([("exception", JObject([
      ("text", JString(traceback)),
      ("type", JString(kind)),
      ("class", JString(className))]))]))
  }

  /** The status code and result once the handler call is over: code 0 and
      the returned value, or a caught exception mapped to a body and a code.
      What `except Exception` does not catch escapes. */
  function Capture(config: Config, outcome: Outcome): (captured: Result<(int, Value), Escape>)
    ensures captured.Failure? <==> outcome.RaisedBase?
    ensures outcome.RaisedBase? ==> captured == Failure(HandlerEscaped(outcome.className))
    ensures outcome.Returned? ==> captured == Success((0, outcome.value))
    ensures outcome.RaisedManaged? ==>
              captured == Success((outcome.code, ExceptionBody(outcome.traceback, "managed", outcome.className)))
    ensures outcome.RaisedUncaught? ==>
              captured == Success((config.unhandledExceptionCode,
                                   ExceptionBody(outcome.traceback, "uncaught", outcome.className)))
    ensures captured.Success? && !outcome.Returned? ==>
              Serializable(captured.value.1) && !PassesThrough(captured.value.1)
  {
    match outcome
    case Returned(v) => Success((0, v))
    case RaisedManaged(code, cls, tb) => Success((code, ExceptionBody(tb, "managed", cls)))
    case RaisedUncaught(cls, tb) => Success((config.unhandledExceptionCode, ExceptionBody(tb, "uncaught", cls)))
    case RaisedBase(cls) => Failure(HandlerEscaped(cls))
  }

  /** A tuple result supplies mimetype, code and data; any other result is
      the data, under the JSON mimetype. A `None` mimetype means JSON. */
  function ReplyParts(code: int, result: Value): (parts: (string, int, Value))
    ensures parts.0 == JSON_MIMETYPE || (result.Triple? && result.mimetype == Some(parts.0))
    ensures !result.Triple? ==> parts == (JSON_MIMETYPE, code, result)
    ensures result.Triple? ==>
              && parts.0 == result.mimetype.GetOr(JSON_MIMETYPE)
              && parts.1 == result.code
              && parts.2 == result.data
  {
    match result
    case Triple(m, c, d) => (m.GetOr(JSON_MIMETYPE), c, d)
    case _ => (JSON_MIMETYPE, code, result)
  }

  /** Whether `json.dumps` accepts the value. */
  predicate Serializable(v: Value) {
    match v
    case NoneValue => true
    case Text(_) => true
    case Generator(_) => false
    case Triple(_, _, d) => Serializable(d)
    case Structure(_) => true
    case Opaque(_) => false
  }

  /** Text and generators go out as they are; `None` becomes `''`. */
  predicate PassesThrough(v: Value) {
    v.NoneValue? || v.Text? || v.Generator?
  }

  /** The value a payload carries, as the peer reads it back. */
  function Denotes(p: Payload): Value {
    match p
    case Raw(s) => Text(s)
    case Streamed(chunks) => Generator(chunks)
    case JsonText(v) => v
  }

  /** The value that is sent: `None` coalesced to the empty string. */
  function Coalesce(v: Value): Value {
    if v.NoneValue? then Text("") else v
  }

  /** The reply data for `data` under `mimetype`. It carries exactly the
      (coalesced) result; it fails exactly for a value that is neither text
      nor a generator and that JSON cannot carry, either because the
      mimetype is not JSON or because the value is not serialisable. */
  function EncodeData(mimetype: string, data: Value): (r: Result<Payload, Escape>)
    ensures r.Success? ==> Denotes(r.value) == Coalesce(data)
    ensures r.Success? && !PassesThrough(data) ==> r.value == JsonText(data)
    ensures r.Failure? <==> !PassesThrough(data) && (mimetype != JSON_MIMETYPE || !Serializable(data))
    ensures r.Failure? && mimetype != JSON_MIMETYPE ==> r.error == UndefinedName("noun")
    ensures r.Failure? && mimetype == JSON_MIMETYPE ==> r.error == NotSerializable(data)
    ensures data.NoneValue? ==> r == Success(Raw(""))
    ensures data.Text? ==> r == Success(Raw(data.s))
    ensures data.Generator? ==> r == Success(Streamed(data.chunks))
  {
    match data
    case NoneValue => Success(Raw(""))
    case Text(s) => Success(Raw(s))
    case Generator(chunks) => Success(Streamed(chunks))
    case _ =>
      if mimetype == JSON_MIMETYPE then
        if Serializable(data) then Success(JsonText(data)) else Failure(NotSerializable(data))
      else Failure(UndefinedName("noun"))
  }

  /** The EventReply `__send_event_response` sends: version 1, correlated to
      the event's id, with `text/plain` and empty data unless given. */
  function EventResponse(replyTo: MessageId, code: int,
                         mimetype: string := DEFAULT_REPLY_MIMETYPE, data: Payload := Raw(""))
    : (o: Outbound)
    ensures o.replyTo == replyTo
    ensures o.message.EventReply? && o.message.version == 1
    ensures o.message.mimetype == mimetype && o.message.code == code && o.message.body == data
  {
    Outbound(replyTo, EventReply(REPLY_VERSION, mimetype, code, data))
  }

  /** The handler's outcome for the decoded body. */
  function Call(router: Router, handler: Handler, parameters: seq<string>, mimetype: string, body: Value)
    : Outcome
  {
    handler(Invocation(router.context, mimetype, body, parameters))
  }

  /** `__process_event`: decode the body, call the handler, map its result
      or exception to one EventReply. An `Exception` raised by the handler
      never escapes: a managed one keeps its code, any other gets the
      configured code; anything else escapes unanswered. A non-tuple result is sent as JSON with code 0; a tuple sets
      mimetype, code and data itself. */
  function Process(router: Router, id: MessageId, handler: Handler, parameters: seq<string>,
                   mimetype: string, data: string): (r: Result<Outbound, Escape>)
    ensures HandlerBody(router.parseJson, mimetype, data).Failure? ==>
              r == Failure(HandlerBody(router.parseJson, mimetype, data).error)
    ensures r.Success? ==>
              r.value.replyTo == id && r.value.message.EventReply? &&
              r.value.message.version == REPLY_VERSION
    ensures HandlerBody(router.parseJson, mimetype, data).Success? ==>
              var o := Call(router, handler, parameters, mimetype,
                            HandlerBody(router.parseJson, mimetype, data).value);
              && (o.RaisedBase? ==> r == Failure(HandlerEscaped(o.className)))
              && (o.RaisedManaged? ==>
                    r == Success(EventResponse(id, o.code, JSON_MIMETYPE,
                                               JsonText(ExceptionBody(o.traceback, "managed", o.className)))))
              && (o.RaisedUncaught? ==>
                    r == Success(EventResponse(id, router.config.unhandledExceptionCode, JSON_MIMETYPE,
                                               JsonText(ExceptionBody(o.traceback, "uncaught", o.className)))))
              && (o.Returned? && !o.value.Triple? ==>
                    && (r.Failure? <==> !PassesThrough(o.value) && !Serializable(o.value))
                    && (r.Failure? ==> EncodeData(JSON_MIMETYPE, o.value) == Failure(r.error))
                    && (r.Success? ==>
                          && r.value.message.mimetype == JSON_MIMETYPE
                          && r.value.message.code == 0
                          && EncodeData(JSON_MIMETYPE, o.value) == Success(r.value.message.body)
                          && Denotes(r.value.message.body) == Coalesce(o.value)))
              && (o.Returned? && o.value.Triple? ==>
                    && (r.Success? ==>
                          && r.value.message.mimetype == o.value.mimetype.GetOr(JSON_MIMETYPE)
                          && r.value.message.code == o.value.code
                          && EncodeData(o.value.mimetype.GetOr(JSON_MIMETYPE), o.value.data)
                             == Success(r.value.message.body)
                          && Denotes(r.value.message.body) == Coalesce(o.value.data))
                    && (r.Failure? ==>
                          EncodeData(o.value.mimetype.GetOr(JSON_MIMETYPE), o.value.data) == Failure(r.error))
                    && (r.Failure? <==>
                          !PassesThrough(o.value.data) &&
                          (o.value.mimetype.GetOr(JSON_MIMETYPE) != JSON_MIMETYPE ||
                           !Serializable(o.value.data))))
  {
    match HandlerBody(router.parseJson, mimetype, data)
    case Failure(e) => Failure(e)
    case Success(body) =>
      match Capture(router.config, Call(router, handler, parameters, mimetype, body))
      case Failure(e) => Failure(e)
      case Success((code, result)) =>
        var (replyMimetype, replyCode, replyData) := ReplyParts(code, result);
        match EncodeData(replyMimetype, replyData)
        case Failure(e) => Failure(e)
        case Success(payload) => Success(EventResponse(id, replyCode, replyMimetype, payload))
  }

  /** Text, generators and `None` are sent as they are whatever the reply's
      mimetype: only other values depend on it. */
  lemma PassThroughIgnoresMimetype(m1: string, m2: string, data: Value)
    requires PassesThrough(data)
    ensures EncodeData(m1, data) == EncodeData(m2, data)
    ensures EncodeData(m1, data).Success? && !EncodeData(m1, data).value.JsonText?
  {
  }

  /** A handler that echoes a non-JSON body back under the same mimetype
      makes the reply carry exactly the data the event brought: decoding
      the body and encoding the result are inverse for text. */
  lemma {:induction false} TextEchoRoundTrip(router: Router, id: MessageId, handler: Handler,
                                             parameters: seq<string>, mimetype: string, data: string)
    requires mimetype != JSON_MIMETYPE
    requires forall call :: handler(call) == Returned(Triple(Some(call.mimetype), 0, call.body))
    ensures Process(router, id, handler, parameters, mimetype, data)
            == Success(EventResponse(id, 0, mimetype, Raw(data)))
  {
    var body := HandlerBody(router.parseJson, mimetype, data);
    assert body == Success(Text(data));
    var call := Invocation(router.context, mimetype, Text(data), parameters);
    assert handler(call) == Returned(Triple(Some(mimetype), 0, Text(data)));
  }

  /** A handler that returns the decoded JSON body as its result sends back
      that document, as JSON with code 0: the peer reads back exactly what
      the handler was given. */
  lemma {:induction false} JsonEchoRoundTrip(router: Router, id: MessageId, handler: Handler,
                                             parameters: seq<string>, data: string, doc: Composite)
    requires data != [] && router.parseJson(data) == Some(Structure(doc))
    requires forall call :: handler(call) == Returned(call.body)
    ensures Process(router, id, handler, parameters, JSON_MIMETYPE, data)
            == Success(EventResponse(id, 0, JSON_MIMETYPE, JsonText(Structure(doc))))
    ensures Denotes(JsonText(Structure(doc))) == Structure(doc)
  {
    var body := HandlerBody(router.parseJson, JSON_MIMETYPE, data);
    assert body == Success(Structure(doc));
    var call := Invocation(router.context, JSON_MIMETYPE, Structure(doc), parameters);
    assert handler(call) == Returned(Structure(doc));
  }

  /** `__handle_event`: derive the handler name and parameters, then either
      process the event or, when no handler has that name, send exactly
      one reply with the unhandled-event code, `text/plain` and no data. */
  function HandleEvent(router: Router, id: MessageId, event: Message): (r: Result<Outbound, Escape>)
    requires event.Event?
    ensures HandlerName(event.verb, event.noun) !in router.handlers ==>
              r == Success(Outbound(id, EventReply(REPLY_VERSION, DEFAULT_REPLY_MIMETYPE,
                                                   router.config.unhandledEventCode, Raw(""))))
    ensures HandlerName(event.verb, event.noun) in router.handlers ==>
              r == Process(router, id, router.handlers[HandlerName(event.verb, event.noun)],
                           NounParameters(event.noun), event.mimetype, event.data)
    ensures r.Success? ==> r.value.replyTo == id && r.value.message.EventReply?
  {
    var name := HandlerName(event.verb, event.noun);
    if name in router.handlers then
      Process(router, id, router.handlers[name], NounParameters(event.noun), event.mimetype, event.data)
    else
      Success(EventResponse(id, router.config.unhandledEventCode))
  }

  /** An event is answered unless it found a handler and then either its
      JSON body did not parse, the handler raised something outside
      `Exception`'s hierarchy, or it returned a data value that is neither
      text, a generator nor `None`; an `Exception` raised by the handler
      never keeps the reply from being sent. */
  lemma EscapesOnlyOnCodecOrBaseException(router: Router, id: MessageId, event: Message)
    requires event.Event?
    ensures var name := HandlerName(event.verb, event.noun);
            var body := HandlerBody(router.parseJson, event.mimetype, event.data);
            HandleEvent(router, id, event).Failure? ==>
              && name in router.handlers
              && (body.Success? ==>
                    var o := Call(router, router.handlers[name], NounParameters(event.noun),
                                  event.mimetype, body.value);
                    && !o.RaisedManaged? && !o.RaisedUncaught?
                    && (o.Returned? ==> !PassesThrough(if o.value.Triple? then o.value.data else o.value)))
  {
  }
}

=== FILE: message_loop.dfy ===
/** `CommonMessageLoop.handle` (rpipe/message_loop.py:42-95) and the
    heartbeat half of the loop. The exchange is abstract: each turn of the
    loop is one `Poll`, recording what `is_alive` answered and what `read`
    returned. Handlers run in their own greenlets; the model lists the frames
    the loop hands to them and, separately, the reply each one produces. */
module MessageLoop {
  import opened Wrappers
  import opened Messages
  import opened EventRouter

  /** What one `read` on the exchange gives: nothing before the timeout
      (`gevent.queue.Empty`), `RpConnectionClosed`, or a frame. */
  datatype ReadResult = NoData | ConnectionClosed | Received(frame: Frame)

  /** One turn of the loop: the answer of `is_alive`, then the result of
      `read` (never performed when the exchange is no longer alive). */
  datatype Poll = Poll(alive: bool, read: ReadResult)

  datatype ExitReason = ExchangeEnded | PeerClosed | UnknownMessage

  /** `StillReading` when the polls ran out with the loop still going;
      otherwise the index of the poll that ended it and why. */
  datatype LoopExit = StillReading | Exited(at: nat, reason: ExitReason)

  /** The frames handed to handlers, in order, how the loop ended, and
      whether `stop_exchange` ran. */
  datatype LoopRun = LoopRun(dispatched: seq<Frame>, exit: LoopExit, stoppedExchange: bool)

  /** The message types the loop has a handler for. */
  predicate Dispatchable(m: Message) {
    m.Heartbeat? || m.Event?
  }

  /** Whether one poll ends the loop, and why: a dead exchange, a closed
      connection, or (only with `exitOnUnknown`) a frame of any type the
      loop has no handler for. An empty read never ends it. */
  function PollEnds(p: Poll, exitOnUnknown: bool): Option<ExitReason> {
    if !p.alive then Some(ExchangeEnded)
    else match p.read
      case NoData => None
      case ConnectionClosed => Some(PeerClosed)
      case Received(f) =>
        if Dispatchable(f.message) || !exitOnUnknown then None else Some(UnknownMessage)
  }

  /** The frame one poll hands to a handler, if any. */
  function DispatchedBy(p: Poll): seq<Frame> {
    if p.alive && p.read.Received? && Dispatchable(p.read.frame.message) then [p.read.frame] else []
  }

  /** The frames a run of polls hands to handlers, in order. */
  function Dispatched(polls: seq<Poll>): seq<Frame>
    decreases |polls|
  {
    if |polls| == 0 then [] else Dispatched(polls[..|polls| - 1]) + DispatchedBy(polls[|polls| - 1])
  }

  /** How many polls the loop got through: all of them, or up to the one
      that ended it. */
  function Horizon(exit: LoopExit, count: nat): nat {
    if exit.Exited? then exit.at else count
  }

  /** The loop. It ends at the first poll that `PollEnds` says ends it, hands
      every heartbeat and event frame read before that to a handler, and
      runs `stop_exchange` only when it breaks out on a dead exchange or a
      closed connection: leaving on an unknown frame returns before it. */
  method Handle(polls: seq<Poll>, exitOnUnknown: bool) returns (run: LoopRun)
    ensures run.exit.StillReading? ==>
              (forall j | 0 <= j < |polls| :: PollEnds(polls[j], exitOnUnknown).None?) &&
              run.dispatched == Dispatched(polls)
    ensures run.exit.Exited? ==>
              && run.exit.at < |polls|
              && PollEnds(polls[run.exit.at], exitOnUnknown) == Some(run.exit.reason)
              && (forall j | 0 <= j < run.exit.at :: PollEnds(polls[j], exitOnUnknown).None?)
              && run.dispatched == Dispatched(polls[..run.exit.at])
    ensures run.stoppedExchange <==> run.exit.Exited? && run.exit.reason != UnknownMessage
  {
    var dispatched: seq<Frame> := [];
    var exit := StillReading;
    var i := 0;
    while i < |polls|
      invariant 0 <= i <= |polls|
      invariant forall j | 0 <= j < i :: PollEnds(polls[j], exitOnUnknown).None?
      invariant dispatched == Dispatched(polls[..i])
      invariant exit.StillReading?
    {
      DispatchedStep(polls, i);
      var p := polls[i];
      if !p.alive {
        exit := Exited(i, ExchangeEnded);
        break;
      }
      match p.read {
        case NoData =>
          assert DispatchedBy(p) == [];
        case ConnectionClosed =>
          exit := Exited(i, PeerClosed);
          break;
        case Received(f) =>
          if f.message.Heartbeat? || f.message.Event? {
            assert DispatchedBy(p) == [f];
            dispatched := dispatched + [f];
          } else if exitOnUnknown {
            return LoopRun(dispatched, Exited(i, UnknownMessage), false);
          } else {
            assert DispatchedBy(p) == [];
          }
      }
      assert PollEnds(p, exitOnUnknown).None?;
      i := i + 1;
    }
    if exit.StillReading? {
      assert polls[..|polls|] == polls;
      return LoopRun(dispatched, StillReading, false);
    }
    // the statement after the loop: rpipe/message_loop.py:95
    run := LoopRun(dispatched, exit, true);
  }

  /** One more poll hands over at most its own frame. */
  lemma DispatchedStep(polls: seq<Poll>, i: nat)
    requires i < |polls|
    ensures Dispatched(polls[..i + 1]) == Dispatched(polls[..i]) + DispatchedBy(polls[i])
  {
    assert polls[..i + 1][..i] == polls[..i];
  }

  /** Every frame handed to a handler is a heartbeat or an event. */
  lemma {:induction false} DispatchedAreDispatchable(polls: seq<Poll>)
    ensures forall f | f in Dispatched(polls) :: Dispatchable(f.message)
    decreases |polls|
  {
    if |polls| > 0 {
      DispatchedAreDispatchable(polls[..|polls| - 1]);
    }
  }

  /** A heartbeat or event frame read while the exchange is alive is handed
      to a handler. */
  lemma {:induction false} DispatchedIncludes(polls: seq<Poll>, j: nat)
    requires j < |polls|
    requires polls[j].alive && polls[j].read.Received?
    requires Dispatchable(polls[j].read.frame.message)
    ensures polls[j].read.frame in Dispatched(polls)
    decreases |polls|
  {
    if j < |polls| - 1 {
      var front := polls[..|polls| - 1];
      assert front[j] == polls[j];
      DispatchedIncludes(front, j);
    }
  }

  /** The reply `__handle_heartbeat` sends: the shared version-1
      HeartbeatReply, correlated to the heartbeat's id. */
  function HeartbeatResponse(id: MessageId): (o: Outbound)
    ensures o.replyTo == id
    ensures o.message.HeartbeatReply? && o.message.version == 1
  {
    Outbound(id, HeartbeatReply(REPLY_VERSION))
  }

  /** The reply the handler greenlet for one dispatched frame sends, if it
      sends one: always for a heartbeat, for an event unless its processing
      raised. Heartbeats do not consult the application's handlers. */
  function Respond(router: Router, f: Frame): (r: Option<Outbound>)
    requires Dispatchable(f.message)
    ensures r.Some? ==> r.value.replyTo == f.id
    ensures f.message.Heartbeat? ==> r == Some(Outbound(f.id, HeartbeatReply(REPLY_VERSION)))
    ensures f.message.Event? ==> r == HandleEvent(router, f.id, f.message).ToOption()
  {
    if f.message.Heartbeat? then Some(HeartbeatResponse(f.id))
    else HandleEvent(router, f.id, f.message).ToOption()
  }

  /** A heartbeat is answered the same way whatever the application's
      handlers are. */
  lemma HeartbeatIgnoresHandlers(router: Router, other: Router, f: Frame)
    requires f.message.Heartbeat?
    ensures Respond(router, f) == Respond(other, f) == Some(HeartbeatResponse(f.id))
  {
  }

  /** A received frame that is a heartbeat, on a live exchange. */
  predicate ReceivedHeartbeat(p: Poll) {
    p.alive && p.read.Received? && p.read.frame.message.Heartbeat?
  }

  /** A received frame that is an event, on a live exchange. */
  predicate ReceivedEvent(p: Poll) {
    p.alive && p.read.Received? && p.read.frame.message.Event?
  }

  /** The replies a run of handlers sends, in dispatch order: each frame's
      reply, skipping frames whose handler sends none. */
  function Replies(respond: Frame --> Option<Outbound>, fs: seq<Frame>): (sent: seq<Outbound>)
    requires forall f | f in fs :: respond.requires(f)
    ensures |sent| <= |fs|
    decreases |fs|
  {
    if |fs| == 0 then []
    else
      var last := fs[|fs| - 1];
      Replies(respond, fs[..|fs| - 1]) + (if respond(last).Some? then [respond(last).value] else [])
  }

  /** When every handler replies, there is one reply per frame, each the
      reply of the frame in the same position. */
  lemma {:induction false} RepliesAllAnswered(respond: Frame --> Option<Outbound>, fs: seq<Frame>)
    requires forall f | f in fs :: respond.requires(f)
    requires forall f | f in fs :: respond(f).Some?
    ensures |Replies(respond, fs)| == |fs|
    ensures forall k | 0 <= k < |fs| :: Replies(respond, fs)[k] == respond(fs[k]).value
  {
    if |fs| > 0 {
      var front := fs[..|fs| - 1];
      assert forall f | f in front :: f in fs;
      RepliesAllAnswered(respond, front);
    }
  }

  /** One more frame adds at most its own reply. */
  lemma RepliesStep(respond: Frame --> Option<Outbound>, fs: seq<Frame>, i: nat)
    requires forall f | f in fs :: respond.requires(f)
    requires i < |fs|
    ensures Replies(respond, fs[..i + 1])
            == Replies(respond, fs[..i]) + (if respond(fs[i]).Some? then [respond(fs[i]).value] else [])
  {
    assert fs[..i + 1][..i] == fs[..i];
  }

  /** No two frames share a message id. */
  predicate DistinctIds(fs: seq<Frame>) {
    forall a, b | 0 <= a < b < |fs| :: fs[a].id != fs[b].id
  }

  /** Every reply sent answers one of the frames. */
  lemma {:induction false} RepliesCorrelated(respond: Frame --> Option<Outbound>, fs: seq<Frame>)
    requires forall f | f in fs :: respond.requires(f)
    requires forall f | f in fs :: respond(f).Some? ==> respond(f).value.replyTo == f.id
    ensures forall o | o in Replies(respond, fs) :: exists k | 0 <= k < |fs| :: o.replyTo == fs[k].id
    decreases |fs|
  {
    if |fs| > 0 {
      var front := fs[..|fs| - 1];
      RepliesCorrelated(respond, front);
      forall o | o in Replies(respond, fs)
        ensures exists k | 0 <= k < |fs| :: o.replyTo == fs[k].id
      {
        if o in Replies(respond, front) {
          var k :| 0 <= k < |front| && o.replyTo == front[k].id;
          assert fs[k] == front[k];
        } else {
          assert o.replyTo == fs[|fs| - 1].id;
        }
      }
    }
  }

  /** A message answering an id no frame carries is never sent. */
  lemma NoReplyForUnusedId(respond: Frame --> Option<Outbound>, fs: seq<Frame>, o: Outbound)
    requires forall f | f in fs :: respond.requires(f)
    requires forall f | f in fs :: respond(f).Some? ==> respond(f).value.replyTo == f.id
    requires forall k | 0 <= k < |fs| :: fs[k].id != o.replyTo
    ensures multiset(Replies(respond, fs))[o] == 0
  {
    RepliesCorrelated(respond, fs);
  }

  /** A frame whose handler replies, and whose id no other frame carries,
      has its reply sent exactly once. */
  lemma {:induction false} RepliesExactlyOnce(respond: Frame --> Option<Outbound>, fs: seq<Frame>, k: nat)
    requires forall f | f in fs :: respond.requires(f)
    requires forall f | f in fs :: respond(f).Some? ==> respond(f).value.replyTo == f.id
    requires k < |fs| && respond(fs[k]).Some?
    requires forall j | 0 <= j < |fs| && j != k :: fs[j].id != fs[k].id
    ensures multiset(Replies(respond, fs))[respond(fs[k]).value] == 1
    decreases |fs|
  {
    var front, last := fs[..|fs| - 1], fs[|fs| - 1];
    var o := respond(fs[k]).value;
    var lastReply := if respond(last).Some? then [respond(last).value] else [];
    assert Replies(respond, fs) == Replies(respond, front) + lastReply;
    assert forall f | f in front :: f in fs;
    if k == |fs| - 1 {
      NoReplyForUnusedId(respond, front, o);
      assert lastReply == [o];
    } else {
      assert front[k] == fs[k];
      RepliesExactlyOnce(respond, front, k);
      assert o !in lastReply;
    }
  }

  /** Every dispatched handler runs to completion, in dispatch order (the
      greenlets' real order is not fixed). `respond` is the reply one
      handler sends, if any, correlated to its frame: exactly those replies
      are sent, each once when the frames' ids are distinct. */
  method ReplyAll(respond: Frame --> Option<Outbound>, dispatched: seq<Frame>)
    returns (sent: seq<Outbound>)
    requires forall f | f in dispatched :: respond.requires(f)
    requires forall f | f in dispatched :: respond(f).Some? ==> respond(f).value.replyTo == f.id
    ensures sent == Replies(respond, dispatched)
    ensures forall o | o in sent :: exists f | f in dispatched :: o.replyTo == f.id
    ensures DistinctIds(dispatched) ==>
              forall k | 0 <= k < |dispatched| && respond(dispatched[k]).Some? ::
                multiset(sent)[respond(dispatched[k]).value] == 1
  {
    sent := [];
    var i := 0;
    while i < |dispatched|
      invariant 0 <= i <= |dispatched|
      invariant sent == Replies(respond, dispatched[..i])
    {
      RepliesStep(respond, dispatched, i);
      var reply := respond(dispatched[i]);
      if reply.Some? {
        sent := sent + [reply.value];
      }
      i := i + 1;
    }
    assert dispatched[..|dispatched|] == dispatched;
    RepliesCorrelated(respond, dispatched);
    if DistinctIds(dispatched) {
      forall k | 0 <= k < |dispatched| && respond(dispatched[k]).Some?
        ensures multiset(sent)[respond(dispatched[k]).value] == 1
      {
        RepliesExactlyOnce(respond, dispatched, k);
      }
    }
  }

  /** The reply function of a router's handler greenlets. */
  function Responder(router: Router): Frame --> Option<Outbound> {
    (f: Frame) requires Dispatchable(f.message) => Respond(router, f)
  }

  /** A dispatched frame's reply is among the replies exactly once, when
      message ids are distinct: a heartbeat's HeartbeatReply, or an event's
      EventReply when its processing completes. */
  lemma ServedOnce(router: Router, dispatched: seq<Frame>, f: Frame)
    requires forall g | g in dispatched :: Dispatchable(g.message)
    requires DistinctIds(dispatched)
    requires f in dispatched
    ensures f.message.Heartbeat? ==>
              multiset(Replies(Responder(router), dispatched))[HeartbeatResponse(f.id)] == 1
    ensures f.message.Event? && HandleEvent(router, f.id, f.message).Success? ==>
              multiset(Replies(Responder(router), dispatched))[HandleEvent(router, f.id, f.message).value] == 1
  {
    var k :| 0 <= k < |dispatched| && dispatched[k] == f;
    assert Responder(router)(f) == Respond(router, f);
    if Respond(router, f).Some? {
      RepliesExactlyOnce(Responder(router), dispatched, k);
    }
  }

  /** The loop followed by every dispatched handler running to completion.
      The replies sent are exactly those of the dispatched frames, in
      dispatch order. When message ids are distinct, each heartbeat read
      before the loop ended gets exactly one correlated HeartbeatReply, and
      each event whose processing completes gets its EventReply exactly
      once. */
  method Serve(router: Router, polls: seq<Poll>, exitOnUnknown: bool)
    returns (run: LoopRun, sent: seq<Outbound>)
    ensures run.exit.StillReading? ==>
              forall j | 0 <= j < |polls| :: PollEnds(polls[j], exitOnUnknown).None?
    ensures run.exit.Exited? ==>
              && run.exit.at < |polls|
              && PollEnds(polls[run.exit.at], exitOnUnknown) == Some(run.exit.reason)
              && (forall j | 0 <= j < run.exit.at :: PollEnds(polls[j], exitOnUnknown).None?)
    ensures Horizon(run.exit, |polls|) <= |polls|
    ensures run.dispatched == Dispatched(polls[..Horizon(run.exit, |polls|)])
    ensures run.stoppedExchange <==> run.exit.Exited? && run.exit.reason != UnknownMessage
    ensures forall f | f in run.dispatched :: Dispatchable(f.message)
    ensures sent == Replies(Responder(router), run.dispatched)
    ensures DistinctIds(run.dispatched) ==>
              forall j | 0 <= j < Horizon(run.exit, |polls|) && ReceivedHeartbeat(polls[j]) ::
                multiset(sent)[HeartbeatResponse(polls[j].read.frame.id)] == 1
    ensures DistinctIds(run.dispatched) ==>
              forall j | 0 <= j < Horizon(run.exit, |polls|) && ReceivedEvent(polls[j]) &&
                         HandleEvent(router, polls[j].read.frame.id, polls[j].read.frame.message).Success? ::
                multiset(sent)[HandleEvent(router, polls[j].read.frame.id, polls[j].read.frame.message).value] == 1
    ensures forall o | o in sent :: exists f | f in run.dispatched :: o.replyTo == f.id
  {
    run := Handle(polls, exitOnUnknown);
    var horizon := Horizon(run.exit, |polls|);
    var seen := polls[..horizon];
    assert run.dispatched == Dispatched(seen) by {
      if run.exit.StillReading? { assert seen == polls; }
    }
    DispatchedAreDispatchable(seen);
    sent := ReplyAll(Responder(router), run.dispatched);
    if DistinctIds(run.dispatched) {
      forall j | 0 <= j < horizon && (ReceivedHeartbeat(polls[j]) || ReceivedEvent(polls[j]))
        ensures var f := polls[j].read.frame;
                && (f.message.Heartbeat? ==> multiset(sent)[HeartbeatResponse(f.id)] == 1)
                && (f.message.Event? && HandleEvent(router, f.id, f.message).Success? ==>
                      multiset(sent)[HandleEvent(router, f.id, f.message).value] == 1)
      {
        assert seen[j] == polls[j];
        DispatchedIncludes(seen, j);
        ServedOnce(router, run.dispatched, polls[j].read.frame);
      }
    }
  }
}

=== FILE: messages.dfy ===
/** The messages a connection carries and the Python values an event handler
    sees and returns. Wire framing itself is not modelled: a frame is the
    pair (message id, message object) that the exchange's `read` returns. */
module Messages {
  import opened Wrappers

  /** A message id as the exchange hands it out; replies quote it. */
  type MessageId = nat

  /** The MIME type `_CT_JSON` (rpipe/message_loop.py:23). */
  const JSON_MIMETYPE: string := "application/json"

  /** Every reply object the loop builds carries protocol version 1. */
  const REPLY_VERSION: int := 1

  /** A peer address as the socket server reports it: `(host, port)`. The
      host is optional only so that an address whose first element is
      `None` can be expressed. */
  datatype Address = Address(host: Option<string>, port: int)

  /** `CONNECTION_CONTEXT_T` (rpipe/message_loop.py:19-21). */
  datatype ConnectionContext = ConnectionContext(participantAddress: Address)

  /** A JSON document, as `json.loads` produces and `json.dumps` consumes.
      Numbers are integers only: a float such as `time.time()` is not
      represented, since nothing in the loop or the catalog computes on
      numbers. */
  datatype Json =
    | JNull
    | JBool(b: bool)
    | JNumber(n: int)
    | JString(s: string)
    | JArray(items: seq<Json>)
    | JObject(members: seq<(string, Json)>)

  /** A dict, list, number or boolean: a JSON value that Python does not
      hold as `None` or as a string. */
  type Composite = j: Json | !j.JNull? && !j.JString? witness JBool(false)

  /** The Python values that cross the handler boundary, told apart the way
      the event router tells them apart. */
  datatype Value =
    | NoneValue
      /** A `basestring`. */
    | Text(s: string)
      /** A generator, i.e. a lazily produced sequence of text chunks. */
    | Generator(chunks: seq<string>)
      /** A `(mimetype, code, data)` tuple. */
    | Triple(mimetype: Option<string>, code: int, data: Value)
      /** Any JSON-serialisable dict, list, number or boolean. */
    | Structure(doc: Composite)
      /** An object `json.dumps` cannot serialise, named by its class. */
    | Opaque(className: string)

  /** The data of an EventReply. `JsonText(v)` stands for the text
      `json.dumps(v)`; the serialiser itself is not modelled. */
  datatype Payload =
    | Raw(text: string)
    | Streamed(chunks: seq<string>)
    | JsonText(value: Value)

  /** The fixed message catalog. `Unrecognised` is any other type tag. */
  datatype Message =
    | Heartbeat(version: int)
    | HeartbeatReply(version: int)
    | Event(version: int, verb: string, noun: string, mimetype: string, data: string)
    | EventReply(version: int, mimetype: string, code: int, body: Payload)
    | Unrecognised(typeTag: int)

  /** One inbound message with the id the exchange read it under. */
  datatype Frame = Frame(id: MessageId, message: Message)

  /** One outbound message handed to the exchange's `send` with
      `expect_response=False`, correlated by `replyTo`. */
  datatype Outbound = Outbound(replyTo: MessageId, message: Message)
}

=== FILE: router_scenarios.dfy ===
/** Concrete dispatches worked through the model: a JSON result, a managed
    failure with its own code, and an event no handler answers. */
module RouterScenarios {
  import opened Wrappers
  import opened Text
  import opened Messages
  import opened EventRouter

  /** The result `{"time": 123}`. */
  const TimeResult: Value := Structure(JObject([("time", JNumber(123))]))

  /** `get` on `time` is routed to `get_time`, with no parameters. */
  lemma {:induction false} GetTimeRoute()
    ensures HandlerName("get", "time") == "get_time"
    ensures NounParameters("time") == []
  {
    forall i ensures !OccursAt("time", PARAMETER_SEPARATOR, i) {
      if 0 <= i && i + 2 <= 4 {
        assert "time"[i..i + 2][0] == "time"[i];
      }
    }
    SplitWithoutSeparator("time", PARAMETER_SEPARATOR);
    assert NounPath("time") == "time";
    assert ReplaceChar("time", '/', '_') == "time";
    assert Lower("get") == "get";
    JoinCons("get", ["time"], "_");
    assert ["get"] + ["time"] == ["get", "time"];
  }

  /** A `get_time` handler returning `{"time": 123}` yields one EventReply
      with mimetype `application/json`, status 0 and that value as JSON. */
  lemma GetTimeReply(router: Router, id: MessageId, mimetype: string)
    requires "get_time" in router.handlers
    requires forall call :: router.handlers["get_time"](call) == Returned(TimeResult)
    ensures HandleEvent(router, id, Event(1, "get", "time", mimetype, ""))
            == Success(Outbound(id, EventReply(1, JSON_MIMETYPE, 0, JsonText(TimeResult))))
  {
    GetTimeRoute();
  }

  /** A `get_time` handler raising a managed exception with code 42 yields
      status 42 and a body marked `managed`. */
  lemma GetTimeManagedFailure(router: Router, id: MessageId, cls: string, tb: string)
    requires "get_time" in router.handlers
    requires forall call :: router.handlers["get_time"](call) == RaisedManaged(42, cls, tb)
    ensures HandleEvent(router, id, Event(1, "get", "time", "text/plain", ""))
            == Success(Outbound(id, EventReply(1, JSON_MIMETYPE, 42,
                                               JsonText(ExceptionBody(tb, "managed", cls)))))
  {
    GetTimeRoute();
  }

  /** With no `get_time` handler the event still gets exactly one reply:
      the unhandled-event code, `text/plain` and empty data. */
  lemma GetTimeUnhandled(router: Router, id: MessageId)
    requires "get_time" !in router.handlers
    ensures HandleEvent(router, id, Event(1, "GET", "time", JSON_MIMETYPE, "{}"))
            == Success(Outbound(id, EventReply(1, DEFAULT_REPLY_MIMETYPE,
                                               router.config.unhandledEventCode, Raw(""))))
  {
    assert Lower("GET") == "get" by {
      assert LowerChar('G') == 'g' && LowerChar('E') == 'e' && LowerChar('T') == 't';
    }
    HandlerNameIgnoresVerbCase("GET", "time");
    GetTimeRoute();
  }
}

=== FILE: server_connection.dfy ===
/** The register / loop / deregister lifecycle of
    `DefaultServerConnectionHandler` (rpipe/server/connection.py:114-145):
    `handle_new_connection` registers the connection and then runs
    `handle`, whose `finally` calls `handle_close`, which deregisters it.
    How `handle`'s setup in front of its `try` ends, and what other
    connections do to the catalog while this one's loop runs, are
    parameters. */
module ServerConnection {
  import opened Wrappers
  import opened Messages
  import opened ConnectionCatalog

  /** A call this connection makes on the catalog. */
  datatype CatalogCall = RegisterCall(conn: Conn) | DeregisterCall(conn: Conn)

  /** How the part of `handle` in front of its `try` ended: loading the
      event-handler class, the subclass `assert`, building the handler and
      building the `CommonMessageLoop`. When it raises, the `finally` that
      deregisters is never reached. */
  datatype SetupEnd = SetupOk | SetupRaised

  /** How `cml.handle(exit_on_unknown=True)` ended: it returned (on any of
      its exit paths) or raised. */
  datatype LoopEnd = LoopReturned | LoopRaised

  datatype SessionError = CatalogFailed(error: CatalogError) | SetupFailed | LoopFailed

  /** The catalog calls made, whether the message loop ran, the catalog
      afterwards and the exception `handle_new_connection` raises, if any. */
  datatype Session = Session(
    calls: seq<CatalogCall>, loopRan: bool, catalog: Slots, raised: Option<SessionError>)

  /** `handle_new_connection` for connection `c` accepted with catalog
      `before`. `setup` is how `handle`'s setup ended and `others` the net
      effect on the catalog of every other connection while this loop runs.
      Registration comes first; when it fails nothing else happens. When
      the setup raises, the exception escapes with `c` still registered.
      Otherwise the loop runs and, however it ends, `c` is deregistered
      exactly once; a failing deregistration's ValueError replaces any
      exception of the loop. */
  function HandleNewConnection(h: string -> int, before: Slots, c: Conn, setup: SetupEnd,
                               others: Slots -> Slots, loopEnd: LoopEnd): (s: Session)
    ensures |s.calls| >= 1 && s.calls[0] == RegisterCall(c)
    ensures s.loopRan <==> Register(h, before, c).raised.None? && setup.SetupOk?
    ensures multiset(s.calls)[DeregisterCall(c)] == (if s.loopRan then 1 else 0)
    ensures s.calls == (if s.loopRan then [RegisterCall(c), DeregisterCall(c)] else [RegisterCall(c)])
    ensures Register(h, before, c).raised.Some? ==>
              s.catalog == before &&
              s.raised == Some(CatalogFailed(Register(h, before, c).raised.value))
    ensures Register(h, before, c).raised.None? && setup.SetupRaised? ==>
              && s.calls == [RegisterCall(c)]
              && s.catalog == Register(h, before, c).after
              && s.raised == Some(SetupFailed)
    ensures s.loopRan ==> Connected(c)
    ensures s.loopRan && Connected(c) && h(Ip(c)) in others(Register(h, before, c).after) ==>
              && s.catalog.Keys == others(Register(h, before, c).after).Keys - {h(Ip(c))}
              && (forall k | k in s.catalog :: s.catalog[k] == others(Register(h, before, c).after)[k])
              && s.raised == (if loopEnd.LoopRaised? then Some(LoopFailed) else None)
    ensures s.loopRan && Connected(c) && h(Ip(c)) !in others(Register(h, before, c).after) ==>
              && s.catalog == others(Register(h, before, c).after)
              && s.raised == Some(CatalogFailed(NotRegistered(Ip(c))))
  {
    var registered := Register(h, before, c);
    match registered.raised
    case Some(e) => Session([RegisterCall(c)], false, before, Some(CatalogFailed(e)))
    case None =>
      if setup.SetupRaised? then
        // raised in front of the `try`: the `finally` is never reached
        Session([RegisterCall(c)], false, registered.after, Some(SetupFailed))
      else
        // handle(): the loop runs, then `finally: self.handle_close()`
        var closed := Deregister(h, others(registered.after), c);
        var raised :=
          match closed.raised
          case Some(e) => Some(CatalogFailed(e))
          case None => if loopEnd.LoopRaised? then Some(LoopFailed) else None;
        Session([RegisterCall(c), DeregisterCall(c)], true, closed.after, raised)
  }

  /** The parameter names `CommonMessageLoop.__init__` accepts
      (rpipe/message_loop.py:27). */
  const LOOP_INIT_PARAMETERS: set<string> := {"wrapped_socket", "event_handler", "connection_context"}

  /** The keyword arguments `handle` passes when it builds the loop
      (rpipe/server/connection.py:136-140). */
  const HANDLE_LOOP_KEYWORDS: set<string> := {"watch_heartbeats"}

  /** Calling `CommonMessageLoop(...)` with the given keyword arguments:
      Python raises TypeError for any keyword the constructor does not
      name. */
  function ConstructLoop(keywords: set<string>): (r: SetupEnd)
    ensures r.SetupRaised? <==> exists k :: k in keywords && k !in LOOP_INIT_PARAMETERS
  {
    if keywords <= LOOP_INIT_PARAMETERS then SetupOk else SetupRaised
  }

  /** `handle`'s setup as written: when loading and building the event
      handler succeeds, the loop is built with `watch_heartbeats=True`. */
  function SetupAsWritten(handlerSetup: SetupEnd): (r: SetupEnd)
    ensures r.SetupRaised? <==>
              handlerSetup.SetupRaised? || exists k :: k in HANDLE_LOOP_KEYWORDS && k !in LOOP_INIT_PARAMETERS
  {
    if handlerSetup.SetupRaised? then SetupRaised else ConstructLoop(HANDLE_LOOP_KEYWORDS)
  }

  /** `handle`'s setup as evidently intended: the loop is built with the
      arguments its constructor takes. */
  function SetupIntended(handlerSetup: SetupEnd): (r: SetupEnd)
    ensures r == handlerSetup
  {
    if handlerSetup.SetupRaised? then SetupRaised else ConstructLoop({})
  }

  /** As written, the setup of `handle` always raises: `watch_heartbeats` is
      not a parameter of `CommonMessageLoop.__init__`. */
  lemma SetupAsWrittenAlwaysRaises(handlerSetup: SetupEnd)
    ensures SetupAsWritten(handlerSetup) == SetupRaised
  {
    assert "watch_heartbeats" in HANDLE_LOOP_KEYWORDS && "watch_heartbeats" !in LOOP_INIT_PARAMETERS;
  }

  /** As written, a connection that registers never runs its loop and is
      never deregistered: its entry outlives it, and the next connection
      from the same host is refused. */
  lemma {:induction false} AsWrittenSessionLeaksEntry(h: string -> int, before: Slots, c: Conn, d: Conn,
                                                      handlerSetup: SetupEnd, others: Slots -> Slots,
                                                      loopEnd: LoopEnd)
    requires Register(h, before, c).raised.None?
    requires Connected(d) && Ip(d) == Ip(c)
    ensures var s := HandleNewConnection(h, before, c, SetupAsWritten(handlerSetup), others, loopEnd);
            && !s.loopRan
            && s.raised == Some(SetupFailed)
            && DeregisterCall(c) !in s.calls
            && h(Ip(c)) in s.catalog && s.catalog[h(Ip(c))] == c
            && HandleNewConnection(h, s.catalog, d, SetupAsWritten(handlerSetup), others, loopEnd).raised
               == Some(CatalogFailed(AlreadyRegistered(Ip(d))))
  {
    SetupAsWrittenAlwaysRaises(handlerSetup);
  }

  /** With the loop built as intended and no other connection touching the
      catalog, a session leaves the catalog exactly as it found it,
      whichever way its loop ended, and raises only what the loop raised. */
  lemma {:induction false} SessionRestoresCatalog(h: string -> int, before: Slots, c: Conn, loopEnd: LoopEnd)
    requires WellKeyed(h, before)
    ensures var s := HandleNewConnection(h, before, c, SetupIntended(SetupOk), x => x, loopEnd);
            && s.catalog == before
            && (s.loopRan ==> s.raised == (if loopEnd.LoopRaised? then Some(LoopFailed) else None))
  {
    if Register(h, before, c).raised.None? {
      RegisterDeregisterRestores(h, before, c);
    }
  }

  /** A second connection from a host that already has a session is
      refused before its loop starts, and the existing entry stays. */
  lemma SecondSessionFromHostRefused(h: string -> int, before: Slots, live: Conn, c: Conn,
                                     setup: SetupEnd, others: Slots -> Slots, loopEnd: LoopEnd)
    requires WellKeyed(h, before)
    requires Connected(live) && h(Ip(live)) in before && before[h(Ip(live))] == live
    requires Connected(c) && Ip(c) == Ip(live)
    ensures var s := HandleNewConnection(h, before, c, setup, others, loopEnd);
            && !s.loopRan
            && s.raised == Some(CatalogFailed(AlreadyRegistered(Ip(c))))
            && GetConnectionByIp(h, s.catalog, Ip(c)) == Success(live)
  {
  }
}

=== FILE: text.dfy ===
/** The string operations the event router relies on, written the way
    Python 2's `str` performs them: `split` with a non-empty separator,
    `join`, single-character `replace` and `lower`. */
module Text {
  import opened Wrappers

  /** `sep` occurs in `s` starting at index `i`. */
  predicate OccursAt(s: string, sep: string, i: int) {
    0 <= i && i + |sep| <= |s| && s[i..i + |sep|] == sep
  }

  /** Python's `sep in s`. */
  predicate Contains(s: string, sep: string) {
    exists i | 0 <= i <= |s| :: OccursAt(s, sep, i)
  }

  /** Python's `s.find(sep)`, with "not found" as `None`: the leftmost
      occurrence of `sep`. */
  function Find(s: string, sep: string): (r: Option<nat>)
    requires |sep| > 0
    ensures r.Some? ==> OccursAt(s, sep, r.value)
    ensures r.Some? ==> forall j :: 0 <= j < r.value ==> !OccursAt(s, sep, j)
    ensures r.None? ==> forall j :: !OccursAt(s, sep, j)
    decreases |s|
  {
    if |s| < |sep| then None
    else if s[..|sep|] == sep then Some(0)
    else
      OccursAtShift(s, sep);
      match Find(s[1..], sep)
      case None => None
      case Some(i) => Some(i + 1)
  }

  /** An occurrence in `s` past index 0 is an occurrence in `s[1..]` one
      place earlier. */
  lemma OccursAtShift(s: string, sep: string)
    requires |s| > 0
    ensures forall j :: 1 <= j ==> (OccursAt(s, sep, j) <==> OccursAt(s[1..], sep, j - 1))
  {
    forall j | 1 <= j
      ensures OccursAt(s, sep, j) <==> OccursAt(s[1..], sep, j - 1)
    {
      if j + |sep| <= |s| {
        assert s[1..][j - 1..j - 1 + |sep|] == s[j..j + |sep|];
      }
    }
  }

  /** `Find` returns exactly the leftmost occurrence. */
  lemma FindLeftmost(s: string, sep: string, i: nat)
    requires |sep| > 0
    requires OccursAt(s, sep, i)
    requires forall j :: 0 <= j < i ==> !OccursAt(s, sep, j)
    ensures Find(s, sep) == Some(i)
  {
  }

  /** Python's `sep.join(parts)`. */
  function Join(parts: seq<string>, sep: string): (r: string)
    ensures |parts| == 0 ==> r == ""
    ensures |parts| == 1 ==> r == parts[0]
    ensures |parts| >= 1 ==> |parts[0]| <= |r| && r[..|parts[0]|] == parts[0]
    ensures |parts| >= 2 ==>
              && |parts[0]| + |sep| <= |r|
              && r[|parts[0]|..|parts[0]| + |sep|] == sep
              && r[|parts[0]| + |sep|..] == Join(parts[1..], sep)
  {
    if |parts| == 0 then ""
    else if |parts| == 1 then parts[0]
    else parts[0] + sep + Join(parts[1..], sep)
  }

  /** Python's `s.split(sep)` for a non-empty separator: the pieces between
      the leftmost non-overlapping occurrences of `sep`. Joining the pieces
      back with `sep` gives `s`, and no piece contains `sep`. */
  function Split(s: string, sep: string): (parts: seq<string>)
    requires |sep| > 0
    ensures |parts| >= 1
    ensures Join(parts, sep) == s
    ensures forall k :: 0 <= k < |parts| ==> !Contains(parts[k], sep)
    ensures forall j :: 0 <= j < |parts[0]| ==> !OccursAt(s, sep, j)
    ensures |parts| > 1 ==>
              && OccursAt(s, sep, |parts[0]|)
              && parts[1..] == Split(s[|parts[0]| + |sep|..], sep)
    decreases |s|
  {
    match Find(s, sep)
    case None => [s]
    case Some(i) =>
      NothingBeforeFirst(s, sep, i);
      var rest := Split(s[i + |sep|..], sep);
      JoinCons(s[..i], rest, sep);
      assert s[..i + |sep|] == s[..i] + sep;
      assert s == s[..i + |sep|] + s[i + |sep|..];
      assert ([s[..i]] + rest)[1..] == rest;
      [s[..i]] + rest
  }

  /** The text in front of the leftmost occurrence holds no occurrence. */
  lemma NothingBeforeFirst(s: string, sep: string, i: nat)
    requires |sep| > 0
    requires i <= |s|
    requires forall j :: 0 <= j < i ==> !OccursAt(s, sep, j)
    ensures !Contains(s[..i], sep)
  {
    forall j | OccursAt(s[..i], sep, j)
      ensures false
    {
      assert s[..i][j..j + |sep|] == s[j..j + |sep|];
      assert OccursAt(s, sep, j);
    }
  }

  /** A string without the separator splits into itself alone. */
  lemma SplitWithoutSeparator(s: string, sep: string)
    requires |sep| > 0
    requires !Contains(s, sep)
    ensures Split(s, sep) == [s]
  {
  }

  /** `s.split(sep)` has more than one piece exactly when `sep in s`. */
  lemma SplitCount(s: string, sep: string)
    requires |sep| > 0
    ensures |Split(s, sep)| > 1 <==> Contains(s, sep)
  {
    match Find(s, sep)
    case None =>
    case Some(i) => assert OccursAt(s, sep, i);
  }

  /** A one-character separator occurs exactly where the character does. */
  lemma OccursAtChar(s: string, c: char, i: int)
    ensures OccursAt(s, [c], i) <==> 0 <= i < |s| && s[i] == c
  {
    if 0 <= i < |s| {
      assert s[i..i + 1] == [s[i]];
    }
  }

  /** No piece of a split on a character holds that character. */
  lemma SplitCharPieces(s: string, c: char)
    ensures forall k :: 0 <= k < |Split(s, [c])| ==> c !in Split(s, [c])[k]
  {
    var parts := Split(s, [c]);
    forall k, i | 0 <= k < |parts| && 0 <= i < |parts[k]|
      ensures parts[k][i] != c
    {
      OccursAtChar(parts[k], c, i);
    }
  }

  /** Splitting `p + [c] + rest` on `c`, when `p` holds no `c`, cuts right
      after `p`. */
  lemma SplitCharCons(p: string, c: char, rest: string)
    requires c !in p
    ensures Split(p + [c] + rest, [c]) == [p] + Split(rest, [c])
  {
    var s := p + [c] + rest;
    OccursAtChar(s, c, |p|);
    forall j | 0 <= j < |p| ensures !OccursAt(s, [c], j) {
      OccursAtChar(s, c, j);
      assert s[j] == p[j];
    }
    FindLeftmost(s, [c], |p|);
    assert s[..|p|] == p;
    assert s[|p| + 1..] == rest;
  }

  /** A string without the character splits on it into itself alone. */
  lemma SplitCharAbsent(s: string, c: char)
    requires c !in s
    ensures Split(s, [c]) == [s]
  {
    forall i ensures !OccursAt(s, [c], i) {
      OccursAtChar(s, c, i);
    }
    SplitWithoutSeparator(s, [c]);
  }

  /** For a one-character separator, splitting inverts joining: Python's
      `sep.join(parts).split(sep) == parts` whenever no part holds `sep`. */
  lemma {:induction false} SplitJoinChar(parts: seq<string>, c: char)
    requires |parts| >= 1
    requires forall k :: 0 <= k < |parts| ==> c !in parts[k]
    ensures Split(Join(parts, [c]), [c]) == parts
    decreases |parts|
  {
    if |parts| == 1 {
      SplitCharAbsent(parts[0], c);
    } else {
      var p, tail := parts[0], parts[1..];
      assert Join(parts, [c]) == p + [c] + Join(tail, [c]) by {
        assert [p] + tail == parts;
        JoinCons(p, tail, [c]);
      }
      calc {
        Split(Join(parts, [c]), [c]);
        Split(p + [c] + Join(tail, [c]), [c]);
        { SplitCharCons(p, c, Join(tail, [c])); }
        [p] + Split(Join(tail, [c]), [c]);
        { SplitJoinChar(tail, c); }
        [p] + tail;
      }
      assert [p] + tail == parts;
    }
  }

  /** Python's `s.replace(a, b)` for single characters. */
  function ReplaceChar(s: string, a: char, b: char): (r: string)
    ensures |r| == |s|
    ensures forall i :: 0 <= i < |s| ==> r[i] == (if s[i] == a then b else s[i])
    decreases |s|
  {
    if |s| == 0 then ""
    else [if s[0] == a then b else s[0]] + ReplaceChar(s[1..], a, b)
  }

  /** Joining a leading part onto at least one more part puts the separator
      between them. */
  lemma JoinCons(p: string, rest: seq<string>, sep: string)
    requires |rest| >= 1
    ensures Join([p] + rest, sep) == p + sep + Join(rest, sep)
  {
    assert ([p] + rest)[1..] == rest;
  }

  /** Replacing characters distributes over concatenation. */
  lemma ReplaceAppend(x: string, y: string, a: char, b: char)
    ensures ReplaceChar(x + y, a, b) == ReplaceChar(x, a, b) + ReplaceChar(y, a, b)
  {
  }

  /** Searching for a one-character separator finds the first position
      holding that character, or reports that it does not occur. */
  lemma FindChar(s: string, c: char)
    ensures Find(s, [c]).Some? ==>
              var i := Find(s, [c]).value; i < |s| && s[i] == c && c !in s[..i]
    ensures Find(s, [c]).None? ==> c !in s
  {
    match Find(s, [c])
    case None =>
      forall i | 0 <= i < |s| ensures s[i] != c {
        OccursAtChar(s, c, i);
      }
    case Some(i) =>
      OccursAtChar(s, c, i);
      forall j | 0 <= j < i ensures s[..i][j] != c {
        OccursAtChar(s, c, j);
      }
  }

  /** Replacing a character that does not occur changes nothing. */
  lemma ReplaceAbsent(s: string, a: char, b: char)
    requires a !in s
    ensures ReplaceChar(s, a, b) == s
  {
  }

  /** Replacing around the first occurrence of `a`: the text in front is
      kept and the occurrence itself becomes `b`. */
  lemma ReplaceAroundFirst(head: string, tail: string, a: char, b: char)
    requires a !in head
    ensures ReplaceChar(head + [a] + tail, a, b) == head + [b] + ReplaceChar(tail, a, b)
  {
    ReplaceAppend(head + [a], tail, a, b);
    ReplaceAppend(head, [a], a, b);
    ReplaceAbsent(head, a, b);
  }

  /** Splitting on a character that occurs cuts at its first occurrence. */
  lemma {:induction false} SplitAtFirstChar(s: string, c: char)
    requires Find(s, [c]).Some?
    ensures var i := Find(s, [c]).value;
            && i < |s| && c !in s[..i]
            && s == s[..i] + [c] + s[i + 1..]
            && Split(s, [c]) == [s[..i]] + Split(s[i + 1..], [c])
  {
    var i := Find(s, [c]).value;
    assert Split(s, [c]) == [s[..i]] + Split(s[i + |[c]|..], [c]);
    FindChar(s, c);
    assert s == s[..i] + [c] + s[i + 1..];
  }

  /** `s.replace(a, b) == b.join(s.split(a))`: replacing a character is
      splitting on it and joining the pieces with the replacement. */
  lemma {:induction false} ReplaceIsSplitJoin(s: string, a: char, b: char)
    ensures ReplaceChar(s, a, b) == Join(Split(s, [a]), [b])
    decreases |s|
  {
    if Find(s, [a]).None? {
      FindChar(s, a);
      ReplaceAbsent(s, a, b);
    } else {
      SplitAtFirstChar(s, a);
      var i := Find(s, [a]).value;
      var head, tail := s[..i], s[i + 1..];
      ReplaceAroundFirst(head, tail, a, b);
      ReplaceIsSplitJoin(tail, a, b);
      JoinCons(head, Split(tail, [a]), [b]);
    }
  }

  /** Python 2's `str.lower()` on one character: ASCII upper-case letters
      map to lower case, every other character is kept. */
  function LowerChar(c: char): char {
    if 'A' <= c <= 'Z' then (c as int + 32) as char else c
  }

  /** Python 2's `str.lower()`. */
  function Lower(s: string): (r: string)
    ensures |r| == |s|
    ensures forall i :: 0 <= i < |s| ==> r[i] == LowerChar(s[i])
    decreases |s|
  {
    if |s| == 0 then "" else [LowerChar(s[0])] + Lower(s[1..])
  }

  /** No character of `s` is an ASCII upper-case letter. */
  predicate IsLowerCase(s: string) {
    forall i | 0 <= i < |s| :: !('A' <= s[i] <= 'Z')
  }

  /** Lower-casing leaves no upper-case letter, and is idempotent. */
  lemma LowerIsLowerCase(s: string)
    ensures IsLowerCase(Lower(s))
    ensures Lower(Lower(s)) == Lower(s)
  {
  }
}

=== FILE: wrappers.dfy ===
/** Wrappers shared by every module of the model: `Option`
    for a value that may be absent and `Result` for an operation that either
    produces a value or raises (the Python exception becomes the `error`). */
module Wrappers {

  datatype Option<+T> = None | Some(value: T) {

    /** The value held, or `default` when there is none. */
    function GetOr(default: T): T {
      match this
      case Some(v) => v
      case None => default
    }
  }

  datatype Result<+R, +E> = Success(value: R) | Failure(error: E) {

    /** Forgets the error, keeping only whether a value was produced. */
    function ToOption(): Option<R> {
      match this
      case Success(v) => Some(v)
      case Failure(_) => None
    }
  }
}
